=== FILE: README.md ===
# Lucid resource I/O and model metadata, modelled in Dafny

This project models the core of a fork of Lucid, the neural-network
interpretability library. The model covers five source files.

- **Loader** (`lucid/misc/io/loading.py`). `load` resolves a location's
  extension the way `os.path.splitext` does. It looks up the lower-cased
  extension in the `loaders` table and hands the location to
  `load_using_loader`. That function decodes a handle directly. A URL is
  retrieved and decoded, and after a `DecodeError` or `ValueError` it is
  retrieved once more with `cache='purge'`. An unregistered extension, or a
  `KeyError` raised inside a decoder, gets one attempt as an image.
  Retrieval (`read_handle`) and the foreign decoders (PIL, numpy, json,
  protobuf) are oracles. Every call to them is recorded in a trace of
  `Fetch(location, cache)` and `Invoke(decoder, handle)` events, and the
  retry bound, "handles never touch retrieval" and "no extension fails
  before retrieval" are lemmas about that trace. The image decoder
  contributes its shape rule. Its `size` trimming is modelled too, as is
  `_load_text` over a strict UTF-8 codec and `str.splitlines`. A keyword
  argument that a decoder's signature does not take raises `TypeError`,
  and `json.load` raises it only after reading and decoding the bytes.
- **Saver** (`lucid/misc/io/saving.py`). `save` looks up the extension,
  case-sensitively, in `savers`. It falls back to `save_str` for a `str`
  and raises otherwise. The saver writes to a caller's handle, or inside a
  scoped `write_handle` for a path. Opening that handle may raise, and a
  saver may raise after some writes. A keyword argument that a saver's
  signature does not take raises `TypeError`. `save_txt` terminates lines. Writes are
  events in a trace, and a text round trip connects `save_txt` with
  `_load_text`.
- **Model metadata** (`lucid/modelzoo/vision_base.py`).
  - `Layer.__getitem__` and `_layers_from_list_of_dicts`, with a round-trip
    lemma.
  - `Model.get_layer`: an exact match, then a case-insensitive substring
    match, then `KeyError`.
  - `FrozenGraphModel.__init__`: mandatory keys, read-only properties,
    `./` path resolution and layer names.
  - `load_from_manifest`.
  - The image-shape rule of `suggest_save_args`.
- **Tile geometry** (`lucid/scratch/atlas_pipeline/render_tile.py`). The
  grid box of a cell, its density-scaled and centred box, and the records
  `aggregate_tile` builds. Images are abstracted away.
- **Low-resolution offsets** (`lucid/optvis/param/lowres.py`). The
  normalisation of `offset` to one integer per axis, and the shape
  arithmetic of the `SYMMETRIC` pad and the slice that apply it. One axis
  of the shift is also modelled as a sequence operation.

Python semantics that differ from Dafny's are written out in `PyNumbers`:
floor `%`, `round` to even, and `int` truncation. `os.path` is written out
in `Paths`, `str.splitlines` in `Lines`, and UTF-8 in `Utf8`.

## Model

| member | source | states |
|---|---|---|
| Paths.SplitExt | lucid/misc/io/loading.py:180-182 | `os.path.splitext`: stem plus suffix is the path; the suffix is empty exactly when the name has no extension, and otherwise starts with the dot and sits at the extension position |
| Paths.SuffixAfterLastDot | lucid/misc/io/loading.py:180-182 | a stem not ending in a dot or slash, then a dot and a suffix without dots or slashes, splits at that dot; the suffix may be empty, so `a.` gives `.` |
| Paths.LeadingDotsAreNotAnExtension | lucid/misc/io/loading.py:180-182 | leading dots of the final path component (`.bashrc`, `..x`) do not make an extension |
| Paths.DotInDirectoryIsNotAnExtension | lucid/misc/io/loading.py:180-182 | a dot in a directory component never makes an extension of the file name |
| Loading.GetExtension | lucid/misc/io/loading.py:178-185 | succeeds exactly when the handle's name or the URL has a `splitext` extension; the result keeps the dot and is a suffix of the name; otherwise `RuntimeError` naming the location |
| Loading.GetExtensionAsWritten | lucid/misc/io/loading.py:178-185 | the code as written: the same success condition and the same outcome for a URL, but a handle with no extension raises `TypeError` (string plus handle) |
| Loading.DecoderFor | lucid/misc/io/loading.py:107-117 | a decoder is found exactly when the lower-cased extension is a key of `loaders`, and it is that key's decoder |
| LoadPolicy.SelectionIgnoresCase | lucid/misc/io/loading.py:135 | two extensions with the same lower-case form select the same decoder |
| LoadPolicy.UpperCaseExtensionSelectsSameDecoder | lucid/misc/io/loading.py:107-117 | `.PNG` and `.png` both select the image decoder, and `.Json` selects the JSON decoder |
| LoadPolicy.ListedExtensionsAreRegistered | lucid/misc/io/loading.py:148-149 | the extension list in the fallback's error holds exactly the keys of `loaders`, each once |
| Loading.TrimSize | lucid/misc/io/loading.py:53-57 | a `size` of more than two entries is cut to its first two; a shorter one is kept; no size stays no size |
| Loading.ToRgb | lucid/misc/io/loading.py:75 | the grayscale broadcast appends a channel axis of 3, and every output element is the input element it replicates |
| Loading.LoadImage | lucid/misc/io/loading.py:71-78 | a successful decode has rank 3; PIL's error propagates; rank 3 is returned unchanged, rank 2 becomes `ToRgb`, and any other rank raises `NotImplementedError` |
| Loading.LoadText | lucid/misc/io/loading.py:86-89 | the UTF-8 decoded content, or its `splitlines()` when `split` is true; a decoding failure is `ValueError` |
| Loading.FirstAttempt | lucid/misc/io/loading.py:162-164 | the body of the `try`: one retrieval with the caller's cache, then at most one invocation of the chosen decoder |
| Loading.LoadUsingLoader | lucid/misc/io/loading.py:157-171 | a handle gives one decoder call and no retrieval; a URL gives one or two retrievals, the first with the caller's cache, any later one with `purge`; the second happens exactly when the first attempt raised `DecodeError` or `ValueError`, and its outcome is returned; otherwise the first attempt's outcome is returned |
| Loading.Fallback | lucid/misc/io/loading.py:143-152 | one retrieval with the caller's cache, only image decoding, a rank-3 image on success and `RuntimeError` naming the location and every registered extension on failure |
| Loading.Load | lucid/misc/io/loading.py:120-152 | `load` with the corrected `get_extension`: a location without extension raises `RuntimeError` with an empty trace; no call reaches retrieval more than three times |
| Loading.LoadAsWritten | lucid/misc/io/loading.py:133-185 | `load` as written: a handle without extension raises `TypeError` before any decode; every other location loads exactly as `Loading.Load` |
| LoadPolicy.NoExtensionFailsFirst | lucid/misc/io/loading.py:133-138 | no extension fails before any retrieval or decode: `RuntimeError` for a URL; for a handle, `TypeError` as written and `RuntimeError` with the corrected extension |
| LoadPolicy.OnlySelectedDecoderInvoked | lucid/misc/io/loading.py:133-145 | only the decoder the extension selects, and the image decoder of the fallback, are ever invoked |
| LoadPolicy.UnknownExtensionFallsBack | lucid/misc/io/loading.py:140-152 | an unregistered extension gives exactly one retrieval, with the caller's cache and never a purge, then only image decoding; failure is the `RuntimeError` listing the extensions |
| LoadPolicy.HandleGoesStraightToDecoder | lucid/misc/io/loading.py:158-159 | a handle is given to the selected decoder once, retrieval is never called, and the decoder's outcome is returned unchanged |
| LoadPolicy.UrlRetrievedAtMostTwice | lucid/misc/io/loading.py:162-170 | a registered URL is retrieved once or twice, first with the caller's cache, then only with `purge`, and twice exactly after a retryable error |
| LoadPolicy.OtherErrorsAreNotRetried | lucid/misc/io/loading.py:162-165 | a decoder error other than `DecodeError`, `ValueError` and `KeyError` propagates after one retrieval |
| LoadPolicy.KeyErrorDivertsToFallback | lucid/misc/io/loading.py:134-140 | a `KeyError` from a registered decoder is caught by `load`; the fallback's outcome is returned after the loader's trace |
| LoadPolicy.RetriedOnce | lucid/misc/io/loading.py:162-170 | after a retryable first failure, the purged handle is decoded and its outcome returned, with exactly four events |
| LoadPolicy.PurgedRetry | lucid/misc/io/loading.py:162-170 | the same seen through `load`, when the second decode raises no `KeyError` |
| Loading.Decode | lucid/misc/io/loading.py:40-104 | a keyword the decoder's signature does not take raises `TypeError` before the handle is read; `json.load` takes any keyword, reads and decodes the bytes first, and then raises `TypeError` for any keyword, so undecodable bytes keep their own error; text is split only for `split=True` and decoded as UTF-8 unless an encoding is given; an image follows `_load_img`; a GraphDef parses or raises as protobuf does |
| LoadPolicy.RefusedKeywordIsNotRetried | lucid/misc/io/loading.py:157-171 | for the image, numpy and text decoders, the `TypeError` of a keyword the signature refuses is neither retried nor sent to the image fallback: one retrieval, one decode |
| LoadPolicy.JsonKeywordRefusedAfterReading | lucid/misc/io/loading.py:81-83 | a `.json` URL loaded with a keyword whose bytes decode raises `TypeError` after one retrieval and one decode, with no retry |
| LoadPolicy.UndecodableJsonIsRetriedDespiteKeyword | lucid/misc/io/loading.py:157-171 | with a keyword, bytes `json.load` cannot decode still raise `UnicodeDecodeError`, a `ValueError`, so the URL is purged and retrieved again, and the second error propagates |
| LoadPolicy.ThreeRetrievalsThroughFallback | lucid/misc/io/loading.py:134-170 | a `KeyError` after the purge reaches the fallback, so one `load` can retrieve three times |
| LoadPolicy.FirstAttemptSucceeds | lucid/misc/io/loading.py:162-164 | a successful first decode is returned after one retrieval and one decode |
| LoadPolicy.GrayscaleScenario | lucid/misc/io/loading.py:71-75 | a 10 by 10 grayscale image is returned as 10 by 10 by 3, each channel holding the gray value, after one retrieval |
| LoadPolicy.UnknownExtensionScenario | lucid/misc/io/loading.py:140-149 | `b.bin` whose image decode fails raises the fallback's `RuntimeError` after one retrieval |
| LoadPolicy.PurgeRecoversScenario | lucid/misc/io/loading.py:162-170 | a `.npy` whose first decode raises `ValueError` is purged and the second decode's array returned |
| LoadPolicy.RetryBoundScenario | lucid/misc/io/loading.py:165-170 | a decoder that always fails retryably gives exactly two retrievals, and the second error propagates |
| LoadPolicy.HandleWithoutExtension | lucid/misc/io/loading.py:183-184 | a handle named `LICENSE` makes the as-written code raise `TypeError`, and the corrected one raise `RuntimeError` |
| Utf8.DecodeEncode | lucid/misc/io/loading.py:88 | decoding the UTF-8 encoding of a string gives the string back |
| Lines.SplitJoin | lucid/misc/io/loading.py:89 | `splitlines` of lines without boundaries joined with newline terminators gives the lines back |
| Saving.SaverFor | lucid/misc/io/saving.py:168-175 | a saver is found exactly when the extension as written is a key of `savers` or the payload is a `str`; a table key wins, `save_str` is used only otherwise, and any other payload raises `ValueError` listing the extensions |
| SavePolicy.SaverExtensionsMatchTable | lucid/misc/io/saving.py:129-138 | the extension list in the error holds exactly the keys of `savers`; every saver extension is also a loader extension, and `.md` is loadable but not saveable |
| SavePolicy.SaverKeysAreLowerCase | lucid/misc/io/saving.py:129-138 | every key of `savers` is lower-case |
| SavePolicy.SelectionIsCaseSensitive | lucid/misc/io/saving.py:169 | `.TXT` is not a saver key, although the loader maps it to the text decoder |
| Saving.Terminated | lucid/misc/io/saving.py:111-112 | the line ends in a newline afterwards; it is extended by at most one byte, and it is unchanged exactly when it already ended in one |
| Saving.SaveTxt | lucid/misc/io/saving.py:98-113 | a `str` is one write; a list gives one terminated write per element, in order; any other payload writes nothing |
| Saving.SaveStr | lucid/misc/io/saving.py:116-118 | a `str` is written verbatim; anything else fails its assertion |
| Saving.Run | lucid/misc/io/saving.py:59-118 | a keyword the saver's signature does not take raises `TypeError` before any write (`save_npy` and `save_npz` take none, `save_json` only `indent`); otherwise `save_txt` never raises, and `save_str` raises exactly for a non-`str` payload and then writes nothing, and otherwise writes the string in one call |
| Saving.Save | lucid/misc/io/saving.py:141-187 | the keyword arguments go to the saver; no extension raises `RuntimeError` with an empty trace; success needs a registered extension or a `str`; a handle target opens nothing; a path that cannot be opened records nothing and raises; a path target's trace starts by opening it and includes closing it |
| SavePolicy.SuccessfulSaveTrace | lucid/misc/io/saving.py:177-187 | a successful save's trace is the saver's writes, inside the scoped handle for a path, followed by the HTML marking for `gs://…html`; reading the trace back gives the saver's chunks |
| SavePolicy.FailingSaverStillCloses | lucid/misc/io/saving.py:177-182 | a saver's exception propagates after the writes it made before raising, a scoped handle is still closed after them, and no HTML marking follows |
| SavePolicy.RefusedKeywordStillCloses | lucid/misc/io/saving.py:177-182 | a keyword the saver refuses raises `TypeError` with nothing written, and a path is still opened and closed |
| SavePolicy.FailedOpenWritesNothing | lucid/misc/io/saving.py:180-182 | when the scoped `write_handle` cannot be opened its exception propagates and nothing is written |
| SavePolicy.UnknownExtensionSavesString | lucid/misc/io/saving.py:171-172 | an unregistered extension with a `str` payload writes the string verbatim |
| SavePolicy.UnknownExtensionRejectsOthers | lucid/misc/io/saving.py:173-175 | an unregistered extension with another payload raises `ValueError` and nothing is opened or written |
| SavePolicy.TextListWritesOneLinePerItem | lucid/misc/io/saving.py:101-113 | a list saved to `.txt` writes one terminated line per element, in order |
| TextRoundTrip.SaveThenLoadLines | lucid/misc/io/saving.py:101-113 | lines without line boundaries saved to `.txt` and loaded with `split=True` come back unchanged after one retrieval (the load side is loading.py:86-89) |
| TextRoundTrip.LoadJoinedLines | lucid/misc/io/loading.py:86-89 | loading newline-joined UTF-8 lines from a `.txt` URL with `split=True` gives the lines after one retrieval and one decode |
| VisionBase.TagSet | lucid/modelzoo/vision_base.py:54 | `set(tags)` over JSON: the elements of an array, which must all be hashable; the characters of a string; the keys of an object; `TypeError` for a scalar |
| VisionBase.LayerFromDict | lucid/modelzoo/vision_base.py:84-85 | `name`, `depth` and `tags` are read in that order, and the first missing one raises `KeyError`; on success the name and depth are copied and the tags are the set |
| VisionBase.LayersFromListOfDicts | lucid/modelzoo/vision_base.py:81-87 | succeeds exactly when every dict does; yields one layer per dict, in order; on failure the error is some dict's error |
| VisionPolicy.LayersRoundTrip | lucid/modelzoo/vision_base.py:81-87 | the manifest dicts of a list of layers read back to the same layers |
| VisionBase.GetItem | lucid/modelzoo/vision_base.py:56-63 | `type` gives a member of the tags, or `IndexError` when there are none; an instance attribute is returned; any other name raises `AttributeError` |
| VisionBase.GetLayer | lucid/modelzoo/vision_base.py:194-206 | the first exact match is returned, even after a fuzzy match; with no exact match, the first case-insensitive substring match; with neither, `KeyError` listing every layer name |
| SaveArgs.InferImageShape | lucid/modelzoo/vision_base.py:247-252 | a shape is inferred exactly for ranks 3 and 4 with no `-1` among the last three dimensions; the inferred shape is those last three |
| SaveArgs.UnknownBatchIsDropped | lucid/modelzoo/vision_base.py:247-252 | an unknown batch dimension is dropped; an unknown spatial dimension prevents the inference |
| VisionBase.FirstMissing | lucid/modelzoo/vision_base.py:345-347 | the index of the first mandatory key missing from the manifest, or none when all are present |
| VisionBase.ResolveModelPath | lucid/modelzoo/vision_base.py:351-355 | a `model_path` starting with `./` is joined to the model directory; any other string is kept; a non-string raises `AttributeError` |
| VisionBase.LayersAndNames | lucid/modelzoo/vision_base.py:357-363 | a non-empty list of strings becomes `layer_names`; a list of dicts builds `layers`, and `layer_names` is their names in order; a missing `layers` or one without a length raises `TypeError`, and a non-empty object raises `KeyError` |
| VisionBase.NewFrozenGraphModel | lucid/modelzoo/vision_base.py:340-363 | the first missing mandatory key raises `AssertionError`; with all present, an entry naming a read-only property of `Model` (vision_base.py:120-150) raises `AttributeError`; on success every manifest entry is an attribute, a `manifest` entry replaces the `manifest` attribute, and the path and layers are resolved as above; success exactly when none of these fail |
| VisionPolicy.FirstMissingPropertyReported | lucid/modelzoo/vision_base.py:345-347 | with `model_path` and `image_value_range` present, a missing `input_name` is the one reported |
| VisionPolicy.ManifestNamingTheModelIsRejected | lucid/modelzoo/vision_base.py:342-349 | a complete manifest with a `name` entry raises `AttributeError`, because `name` is a property without a setter (vision_base.py:142-144) |
| VisionPolicy.RelativeModelPath | lucid/modelzoo/vision_base.py:351-353 | `./rest` becomes `dir/rest` |
| VisionBase.ModelFromManifest | lucid/modelzoo/vision_base.py:315-325 | a failed load is a `ValueError`; a loaded value that is neither a JSON object nor a `.npz` archive has no `get`; a manifest of type `frozen`, or with no type, builds the model in the manifest's directory; any other type raises `NotImplementedError`; an archive without a `type` array goes to the archive constructor |
| VisionBase.NewFrozenGraphModelFromArchive | lucid/modelzoo/vision_base.py:342-353 | an archive never builds a model: the first missing mandatory name raises `AssertionError`, then a read-only name raises `AttributeError`, and otherwise `model_path`, an array, has no `startswith` |
| VisionPolicy.ArchiveIsAManifestWithoutStringPath | lucid/modelzoo/vision_base.py:342-355 | an archive fails exactly as a JSON manifest with the same entry names and a non-string `model_path` |
| VisionPolicy.UntypedManifestIsFrozen | lucid/modelzoo/vision_base.py:321-323 | a manifest without `type` builds a `FrozenGraphModel` in `dirname(manifest_url)` |
| VisionPolicy.ManifestPathIsRelativeToItsDirectory | lucid/modelzoo/vision_base.py:321-355 | a manifest stored in `dir` whose `model_path` is `./rest` points the model at `dir/rest` |
| Paths.DirNameOfChild | lucid/modelzoo/vision_base.py:322 | `dirname(dir + "/" + name)` is `dir` |
| Paths.JoinRelative | lucid/modelzoo/vision_base.py:353 | `join(dir, rest)` for a relative `rest` is `dir/rest` |
| AtlasTiles.GridBox | lucid/scratch/atlas_pipeline/render_tile.py:15-27 | the grid cell of a key starts at the key's components taken modulo `n_tile` with Python's floor `%`, times `cell_size`; it spans `cell_size` pixels on each axis and, with a positive `n_tile`, lies inside the tile of side `cell_size * n_tile` |
| AtlasTiles.CentredIn | lucid/scratch/atlas_pipeline/render_tile.py:37-41 | the box has side `width` on both axes, the same offsets on both axes, and left and right offsets that differ by at most one pixel; the left offset is `round` of half the slack, so with an odd slack it is the even one of the two candidates; a width no larger than the cell keeps the box inside the cell |
| AtlasTiles.CellPlacement | lucid/scratch/atlas_pipeline/render_tile.py:22-46 | `n_tile` of zero raises `ZeroDivisionError`; without scaling the box is the grid cell; with scaling, non-positive densities raise `ValueError`, and otherwise the width is clamped to at least 1 and centred in the cell |
| AtlasTiles.ScaledBoxInsideGridCell | lucid/scratch/atlas_pipeline/render_tile.py:33-41 | a scaled image no wider than its cell is pasted inside the cell |
| AtlasTiles.RenderTile | lucid/scratch/atlas_pipeline/render_tile.py:11-51 | each cell is rendered once, in key order, and pasted at its placement; the tile side is `cell_size * n_tile`; the first failing placement stops the loop after its rendering |
| AtlasTiles.AggregateTile | lucid/scratch/atlas_pipeline/render_tile.py:54-64 | one record per cell, in key order, holding the aggregate and the first two key components |
| PyNumbers.FloorMod | lucid/scratch/atlas_pipeline/render_tile.py:22-23 | Python's `%`: the result has the divisor's sign, lies within it, and is what floor division leaves over |
| PyNumbers.RoundHalf | lucid/scratch/atlas_pipeline/render_tile.py:37 | `round(d / 2)`: half of `d`, rounding an odd `d`'s half to the even neighbour |
| Lowres.NormalizeEntry | lucid/optvis/param/lowres.py:54-59 | `True` gives the half ratio, or `IndexError` past either shape; `False` gives 0; an int is kept; a float is truncated toward zero |
| Lowres.TrueEntryIsHalfRatio | lucid/optvis/param/lowres.py:55-59 | the `True` entry is `int(shape[n] / underlying_shape[n] / 2)` read over the reals, which is `shape[n] // (2 * underlying_shape[n])` |
| Lowres.NormalizeOffsets | lucid/optvis/param/lowres.py:54-59 | succeeds exactly when every entry normalises; the caller's list is rewritten entry by entry, and on failure the failing entry and all later ones are untouched |
| Lowres.Replicate | lucid/optvis/param/lowres.py:50-51 | a non-list offset becomes `len(shape)` copies of itself |
| Lowres.LeadingPadding | lucid/optvis/param/lowres.py:62 | one `(offset, 0)` pair per axis: padding only at the start |
| Lowres.Pad | lucid/optvis/param/lowres.py:63 | `SYMMETRIC` padding accepts one pair per axis, each amount between 0 and the axis length, and grows each axis by both amounts; anything else is `InvalidArgumentError` |
| Lowres.Slice | lucid/optvis/param/lowres.py:64-65 | the slice succeeds exactly when the window fits inside the padded shape, and its shape is the requested size |
| Lowres.ApplyOffsets | lucid/optvis/param/lowres.py:54-65 | succeeds exactly when every entry normalises to an amount between 0 and its axis length; the result then has shape `shape`, the padding is `(offset[n], 0)` and the slice starts at zeros |
| Lowres.LowresTensor | lucid/optvis/param/lowres.py:48-66 | `None` applies no padding or slicing; a scalar is used on every axis; a caller's list is rewritten in place; on success the result shape is `shape` and each axis is padded at its start by its normalised entry |
| Lowres.Mirror | lucid/optvis/param/lowres.py:63 | the reversal the `SYMMETRIC` mode copies before an axis |
| Lowres.ShiftAlong | lucid/optvis/param/lowres.py:62-65 | along one axis, padding then slicing shifts the content by the offset, keeps the length, and mirrors the start into the vacated places |
| Lowres.ZeroOffsetIsIdentity | lucid/optvis/param/lowres.py:62-65 | a zero offset leaves an axis unchanged |

## Left out

- `read_handle` and `write_handle`, with their caches, are I/O. Retrieval is an oracle `(location, cache) -> stream or exception`. A write target is abstract, and the model records opening, each write and closing. Opening a path is an oracle that may raise.
- The foreign decoders and serialisers are libraries this model does not reach: numpy, json, PIL, protobuf, `save_img`/`_normalize_array` and `NumpyJSONEncoder`. Decoders are oracles whose outcomes the model passes through. Serialisers are oracles giving the chunks written and the exception raised after them, if any.
- The float pixel scaling by `np.iinfo(dtype).max` (loading.py:65-69) is floating point. The image array's elements are taken as the decoder oracle gives them.
- Logging, `warnings.warn` and `print` have no effect on results and are left out.
- The `gsutil setmeta` subprocess (saving.py:186-187) is an external process. It appears only as one trace event after a successful save of a `gs://…html` path.
- TensorFlow graph work in `vision_base.py` is tensor numerics and graph I/O. This covers `create_input`, `import_graph`, `graph_def`, `show_graph`, `Layer.activations`, pickling, and the graph scanning of `suggest_save_args`. Only its image-shape rule is modelled, with the input node's shape as a parameter.
- The floating-point and PIL parts of `render_tile` (`math.log`, `round(owidth * scale)`, `Image.new`, `resize`) are left out. The rounded width is a parameter, and a paste is recorded with its box.
- The tensor numerics of `lowres_tensor` are left out: `tf.Variable`, random initialisation and `resize_bilinear_nd`. The `SYMMETRIC` pad contents are modelled along one axis by `Lowres.ShiftAlong`, not over whole tensors.
- A non-list sequence offset, such as a tuple, is not modelled. It is replicated as one scalar, and `int()` of a tuple raises `TypeError`.
- `lucid/optvis/overrides/smoothed_maxpool_grad.py` is a gradient override, purely numerical graph code.
- `example.py` is a driver script with no logic of its own.
- `str.lower` is modelled on ASCII letters only. For the loader's registry keys this loses nothing: no non-ASCII character lowers to a letter of a key except the Kelvin sign, which lowers to `k`, and no key contains `k`. For layer names it does lose something; see `VisionBase.GetLayer` below.
- Python's set equality, where `1 == 1.0 == True`, is not modelled. JSON numbers, booleans and strings are distinct tags.
- `list(self.tags)[0]` depends on set iteration order. `VisionBase.GetItem` takes the order as a parameter.
- Text written by `save_txt` as a `str` is assumed to be stored as its UTF-8 encoding.
- The exception TensorFlow raises for bad padding or slicing is named `InvalidArgumentError` and carries no message.
- Loading.Load: uses the corrected `get_extension`, so a handle without extension raises `RuntimeError` there. `Loading.LoadAsWritten` is `load` as written. Apart from that case, the two agree on every input. Its own contract states only the no-extension case and the bound of three retrievals. Its other behaviour is stated by the `LoadPolicy` lemmas.
- Loading.Decode: an explicit `size=None` is not told apart from no `size`, although `_load_text` refuses both. `target_dtype` is not modelled, and neither are the `mode` and `formats` keywords of `PIL.Image.open`. `split` is a boolean rather than any truthy value. The keywords `json.load` refuses are those of Python 3.9 and later. Reading the handle and decoding its bytes with the encoding `json` detects is an oracle, because UTF-16 and UTF-32 detection is not modelled.
- VisionBase.GetLayer: layer names and queries are lowered on ASCII letters only. Python's `str.lower` also lowers other letters, such as `Ä` to `ä` and the Kelvin sign (U+212A) to `k`. A query spelled with a Kelvin sign in place of `K` therefore matches a layer named `kernel` in Python but not in the model.
- VisionBase.NewFrozenGraphModel: a manifest key naming a special attribute whose assignment raises `TypeError`, such as `__class__` or `__dict__`, is not modelled. The `AttributeError` of a read-only property carries no name, because the model's JSON objects do not keep the order in which `setattr` would meet several such keys.
- Saving.Save: each `handle.write` of `save_txt` and `save_str` is taken to succeed, and closing the scoped handle is taken not to raise. Keyword values are JSON values; what `save_img` and the other serialisers do with them is the serialiser oracle's.
- VisionBase.ModelFromManifest: a `.npz` archive holding a `type` array is taken not to be of type `frozen` and raises `NotImplementedError`. In the source, comparing that array with `'frozen'` and testing the result depends on the numpy version. A multi-element array can raise `ValueError` instead.
- AtlasTiles.AggregateTile: keys are integer pairs. A float key, which `int(key[0])` truncates and `%` reduces in floating point, is not modelled. The same holds for `AtlasTiles.RenderTile` and `AtlasTiles.GridBox`.
- VisionBase.LoadFromManifest is the composition of `Loading.Load` with `VisionBase.ModelFromManifest` and carries no contract of its own. Its behaviour is stated by `ModelFromManifest`, whose loaded manifest is a parameter.

## Findings

| source | as written | input that shows it | evidently intended | confidence | as-written member | corrected member |
|---|---|---|---|---|---|---|
| lucid/misc/io/loading.py:183-184 | `"No extension in URL: " + url_or_handle` adds a string and a file handle when the handle's name has no extension | a handle whose `.name` is `LICENSE` | `RuntimeError` naming the handle's path, as for a URL (and as `save` does with `path` at saving.py:166) | not executed | Loading.GetExtensionAsWritten and Loading.LoadAsWritten (see LoadPolicy.HandleWithoutExtension and LoadPolicy.NoExtensionFailsFirst) | Loading.GetExtension and Loading.Load |

=== FILE: json.dfy ===
/** JSON documents as the `json` module hands them to the model code: the
    manifest of a model and the records built from it. */
module JsonValues {

  /** A decoded JSON value. Objects are keyed maps; Python's key order is not
      observable by any modelled operation. */
  datatype Json =
    | Null
    | Bool(b: bool)
    | Number(n: real)
    | String(s: string)
    | Array(items: seq<Json>)
    | Object(fields: map<string, Json>)
}

=== FILE: lines.dfy ===
/** `str.splitlines()` and the newline-terminated text that `save_txt`
    writes for a list of lines, which it splits back. */
module Lines {

  /** The characters `str.splitlines` ends a line at: line feed, carriage
      return, vertical tab, form feed, the three information separators
      U+001C..U+001E, next line U+0085, and the line and paragraph
      separators U+2028 and U+2029. */
  predicate IsLineBoundary(c: char) {
    var v := c as int;
    v == 0x0A || v == 0x0B || v == 0x0C || v == 0x0D || v == 0x1C || v == 0x1D || v == 0x1E
    || v == 0x85 || v == 0x2028 || v == 0x2029
  }

  predicate NoBoundary(s: string) {
    forall i :: 0 <= i < |s| ==> !IsLineBoundary(s[i])
  }

  /** The position of the first line boundary of `s`, or `|s|`. */
  function LineEnd(s: string): (i: nat)
    ensures i <= |s| && NoBoundary(s[..i]) && (i < |s| ==> IsLineBoundary(s[i]))
  {
    if s == [] then 0
    else if IsLineBoundary(s[0]) then 0
    else
      var k := LineEnd(s[1..]);
      assert s[..1 + k] == [s[0]] + s[1..][..k];
      1 + k
  }

  /** `s.splitlines()`: the lines of `s` without their terminators; a
      carriage return directly followed by a line feed ends one line, and a
      terminator at the very end does not open an empty last line. */
  function SplitLines(s: string): (r: seq<string>)
    decreases |s|
    ensures forall k :: 0 <= k < |r| ==> NoBoundary(r[k])
    ensures s == [] <==> r == []
  {
    if s == [] then []
    else
      var i := LineEnd(s);
      if i == |s| then [s]
      else
        var next := if s[i] == '\r' && i + 1 < |s| && s[i + 1] == '\n' then i + 2 else i + 1;
        [s[..i]] + SplitLines(s[next..])
  }

  /** Every line followed by a line feed, concatenated. */
  function JoinLines(lines: seq<string>): string {
    if lines == [] then [] else lines[0] + "\n" + JoinLines(lines[1..])
  }

  predicate AllWithoutBoundary(lines: seq<string>) {
    forall k :: 0 <= k < |lines| ==> NoBoundary(lines[k])
  }

  lemma {:induction false} LineEndOfPrefix(a: string, b: string)
    requires NoBoundary(a)
    requires b != [] && IsLineBoundary(b[0])
    ensures LineEnd(a + b) == |a|
  {
    if a != [] {
      assert (a + b)[1..] == a[1..] + b;
      LineEndOfPrefix(a[1..], b);
    }
  }

  /** Splitting newline-joined lines gives the lines back, as long as no
      line contains a boundary of its own. */
  lemma {:induction false} SplitJoin(lines: seq<string>)
    requires AllWithoutBoundary(lines)
    ensures SplitLines(JoinLines(lines)) == lines
  {
    if lines != [] {
      var first := lines[0];
      var rest := JoinLines(lines[1..]);
      var s := JoinLines(lines);
      assert s == first + ("\n" + rest);
      LineEndOfPrefix(first, "\n" + rest);
      assert s[..|first|] == first;
      assert s[|first|] == '\n';
      assert s[|first| + 1..] == rest;
      SplitJoin(lines[1..]);
      assert lines == [first] + lines[1..];
    }
  }
}

=== FILE: load_policy.dfy ===
/** Properties of `load` stated over the trace of calls it makes to the
    retrieval layer and to the decoders. */
module LoadPolicy {
  import opened Runtime
  import opened Strings
  import Paths
  import opened Loading

  /** A location without an extension fails before anything is retrieved
      or decoded: a URL with `RuntimeError` naming it; a handle with the
      intended `RuntimeError` under the corrected extension and with
      `TypeError` as written. */
  lemma NoExtensionFailsFirst(o: Oracles, loc: Location, cache: Cache, opts: Options)
    requires !Paths.HasExtension(NameOf(loc))
    ensures Load(o, loc, cache, opts).trace == []
    ensures Load(o, loc, cache, opts).result == Err(RuntimeError(NoExtension(NameOf(loc))))
    ensures LoadAsWritten(o, loc, cache, opts).trace == []
    ensures loc.Url? ==> LoadAsWritten(o, loc, cache, opts).result == Err(RuntimeError(NoExtension(loc.url)))
    ensures loc.Handle? ==> LoadAsWritten(o, loc, cache, opts).result == Err(TypeError)
  {
  }

  /** The extensions listed in the fallback's error are exactly the
      registered ones, each once. */
  lemma ListedExtensionsAreRegistered()
    ensures forall k :: k in Loaders <==> k in LoaderExtensions
    ensures |LoaderExtensions| == |Loaders|
  {
  }

  /** Decoder selection ignores the case of the extension. */
  lemma SelectionIgnoresCase(a: string, b: string)
    requires Lower(a) == Lower(b)
    ensures DecoderFor(a) == DecoderFor(b)
  {
  }

  lemma UpperCaseExtensionSelectsSameDecoder()
    ensures DecoderFor(".PNG") == DecoderFor(".png") == Some(ImageDecoder)
    ensures DecoderFor(".Json") == Some(JsonDecoder)
  {
    assert Lower(".PNG") == ".png";
    assert Lower(".png") == ".png";
    assert Lower(".Json") == ".json";
  }

  /** The decoders invoked in a concatenation of traces. */
  lemma InvokedInAppend(a: seq<Event>, b: seq<Event>, d: Decoder)
    requires forall i :: 0 <= i < |a| && a[i].Invoke? ==> a[i].decoder == d
    requires forall i :: 0 <= i < |b| && b[i].Invoke? ==> b[i].decoder == ImageDecoder
    ensures forall i :: 0 <= i < |a + b| && (a + b)[i].Invoke? ==>
      (a + b)[i].decoder == d || (a + b)[i].decoder == ImageDecoder
  {
    forall i | 0 <= i < |a + b| && (a + b)[i].Invoke?
      ensures (a + b)[i].decoder == d || (a + b)[i].decoder == ImageDecoder
    {
      if i < |a| {
        assert (a + b)[i] == a[i];
      } else {
        assert (a + b)[i] == b[i - |a|];
      }
    }
  }

  /** Without a registered decoder, every decode in the trace is the image
      fallback's. */
  lemma OnlyFallbackInvoked(o: Oracles, loc: Location, cache: Cache, opts: Options)
    requires ChosenDecoder(loc).None?
    ensures var t := Load(o, loc, cache, opts).trace;
      forall i :: 0 <= i < |t| && t[i].Invoke? ==> t[i].decoder == ImageDecoder
  {
    if GetExtension(loc).Ok? {
      assert DecoderFor(GetExtension(loc).value).None?;
      assert Load(o, loc, cache, opts) == Fallback(o, loc, cache);
    }
  }

  /** With a registered decoder `d`, every decode in the trace is `d` or
      the image fallback's. */
  lemma OnlyDecoderOrFallbackInvoked(o: Oracles, loc: Location, d: Decoder, cache: Cache, opts: Options)
    requires ChosenDecoder(loc) == Some(d)
    ensures var t := Load(o, loc, cache, opts).trace;
      forall i :: 0 <= i < |t| && t[i].Invoke? ==> t[i].decoder == d || t[i].decoder == ImageDecoder
  {
    assert GetExtension(loc).Ok? && DecoderFor(GetExtension(loc).value) == Some(d);
    var first := LoadUsingLoader(o, loc, d, cache, opts);
    if RaisedKeyError(first.result) {
      var fb := Fallback(o, loc, cache);
      assert Load(o, loc, cache, opts).trace == first.trace + fb.trace;
      InvokedInAppend(first.trace, fb.trace, d);
    } else {
      assert Load(o, loc, cache, opts).trace == first.trace;
    }
  }

  /** Only the selected decoder and the image fallback are ever invoked. */
  lemma OnlySelectedDecoderInvoked(o: Oracles, loc: Location, cache: Cache, opts: Options)
    ensures var t := Load(o, loc, cache, opts).trace;
      forall i :: 0 <= i < |t| && t[i].Invoke? ==>
        Some(t[i].decoder) == ChosenDecoder(loc) || t[i].decoder == ImageDecoder
  {
    match ChosenDecoder(loc)
    case None => OnlyFallbackInvoked(o, loc, cache, opts);
    case Some(d) => OnlyDecoderOrFallbackInvoked(o, loc, d, cache, opts);
  }

  /** An unregistered extension gets one image decode of a handle retrieved
      with the caller's cache policy (never a purge the caller did not ask
      for), and a failure names the location and every registered
      extension. */
  lemma UnknownExtensionFallsBack(o: Oracles, loc: Location, cache: Cache, opts: Options)
    requires GetExtension(loc).Ok? && ChosenDecoder(loc).None?
    ensures var out := Load(o, loc, cache, opts);
      && out.trace[0] == Fetch(loc, cache)
      && FetchCount(out.trace) == 1
      && 1 <= |out.trace| <= 2
      && (forall i :: 0 <= i < |out.trace| && out.trace[i].Fetch? ==> out.trace[i].cache == cache)
      && (forall i :: 0 <= i < |out.trace| && out.trace[i].Invoke? ==> out.trace[i].decoder == ImageDecoder)
      && (out.result.Err? ==> out.result.error == RuntimeError(CannotLoadAsImage(loc, LoaderExtensions)))
  {
  }

  /** A handle is given to the selected decoder once, retrieval is never
      called, and the decoder's outcome is returned unchanged, unless the
      decoder raised `KeyError`. */
  lemma HandleGoesStraightToDecoder(o: Oracles, h: Stream, cache: Cache, opts: Options)
    requires ChosenDecoder(Handle(h)).Some?
    requires !RaisedKeyError(Decode(o, ChosenDecoder(Handle(h)).value, h, opts))
    ensures var d := ChosenDecoder(Handle(h)).value;
      Load(o, Handle(h), cache, opts) == Attempt(Decode(o, d, h, opts), [Invoke(d, h)])
    ensures FetchCount(Load(o, Handle(h), cache, opts).trace) == 0
  {
  }

  /** A URL with a registered extension is retrieved at most twice (as
      long as no `KeyError` sends it to the fallback): first with the
      caller's policy, then, only after `DecodeError` or `ValueError`, with
      `'purge'`. */
  lemma UrlRetrievedAtMostTwice(o: Oracles, url: string, cache: Cache, opts: Options)
    requires ChosenDecoder(Url(url)).Some?
    requires !RaisedKeyError(LoadUsingLoader(o, Url(url), ChosenDecoder(Url(url)).value, cache, opts).result)
    ensures var t := Load(o, Url(url), cache, opts).trace;
      var first := FirstAttempt(o, url, ChosenDecoder(Url(url)).value, cache, opts);
      && t != [] && t[0] == Fetch(Url(url), cache)
      && 1 <= FetchCount(t) <= 2
      && (forall i :: 1 <= i < |t| && t[i].Fetch? ==> t[i] == Fetch(Url(url), Purge))
      && (FetchCount(t) == 2 <==> first.result.Err? && Retryable(first.result.error))
  {
  }

  /** A decoder error other than `DecodeError`, `ValueError` and `KeyError`
      (the rank `NotImplementedError`, say) propagates after one
      retrieval. */
  lemma OtherErrorsAreNotRetried(o: Oracles, url: string, h: Stream, e: Exception, cache: Cache, opts: Options)
    requires ChosenDecoder(Url(url)).Some?
    requires o.readHandle(Url(url), cache) == Ok(h)
    requires Decode(o, ChosenDecoder(Url(url)).value, h, opts) == Err(e)
    requires !Retryable(e) && !e.KeyError?
    ensures Load(o, Url(url), cache, opts) ==
      Attempt(Err(e), [Fetch(Url(url), cache), Invoke(ChosenDecoder(Url(url)).value, h)])
  {
  }

  /** A `KeyError` raised inside a registered decoder is caught by `load`
      and sent to the image fallback. */
  lemma KeyErrorDivertsToFallback(o: Oracles, loc: Location, cache: Cache, opts: Options)
    requires ChosenDecoder(loc).Some?
    requires RaisedKeyError(LoadUsingLoader(o, loc, ChosenDecoder(loc).value, cache, opts).result)
    ensures var out := Load(o, loc, cache, opts);
      var first := LoadUsingLoader(o, loc, ChosenDecoder(loc).value, cache, opts);
      && out.result == Fallback(o, loc, cache).result
      && (out.result.Err? ==> out.result.error == RuntimeError(CannotLoadAsImage(loc, LoaderExtensions)))
      && out.trace == first.trace + Fallback(o, loc, cache).trace
  {
  }

  /** A retryable failure on the first decode is followed by one purged
      retrieval whose handle is decoded, and that decode's outcome is
      `load_using_loader`'s. */
  lemma RetriedOnce(o: Oracles, url: string, d: Decoder, h1: Stream, h2: Stream, e: Exception, cache: Cache, opts: Options)
    requires o.readHandle(Url(url), cache) == Ok(h1)
    requires Decode(o, d, h1, opts) == Err(e) && Retryable(e)
    requires o.readHandle(Url(url), Purge) == Ok(h2)
    ensures LoadUsingLoader(o, Url(url), d, cache, opts) ==
      Attempt(Decode(o, d, h2, opts),
              [Fetch(Url(url), cache), Invoke(d, h1), Fetch(Url(url), Purge), Invoke(d, h2)])
  {
    var first := FirstAttempt(o, url, d, cache, opts);
    assert first == Attempt(Err(e), [Fetch(Url(url), cache), Invoke(d, h1)]);
    var inner := LoadUsingLoader(o, Handle(h2), d, cache, opts);
    assert inner == Attempt(Decode(o, d, h2, opts), [Invoke(d, h2)]);
  }

  /** Because the fallback also catches a `KeyError` raised after the purge,
      one `load` call can reach the retrieval layer three times. */
  lemma ThreeRetrievalsThroughFallback(o: Oracles, url: string, h1: Stream, h2: Stream, cache: Cache, opts: Options)
    requires ChosenDecoder(Url(url)) == Some(JsonDecoder)
    requires o.readHandle(Url(url), cache) == Ok(h1)
    requires o.loadJson(h1) == Err(ValueError(JsonDecodeError))
    requires o.readHandle(Url(url), Purge) == Ok(h2)
    requires o.loadJson(h2).Err? && o.loadJson(h2).error.KeyError?
    requires !PassesKeywords(opts)
    ensures FetchCount(Load(o, Url(url), cache, opts).trace) == 3
  {
    var d := JsonDecoder;
    RetriedOnce(o, url, d, h1, h2, ValueError(JsonDecodeError), cache, opts);
    var first := LoadUsingLoader(o, Url(url), d, cache, opts);
    assert RaisedKeyError(first.result);
    assert FetchCount(first.trace) == 2;
    var fb := Fallback(o, Url(url), cache);
    CountsAppend(first.trace, fb.trace);
    assert Load(o, Url(url), cache, opts).trace == first.trace + fb.trace;
  }

  /** A keyword the chosen decoder's signature does not take raises
      `TypeError`, which is neither retried nor sent to the fallback: the
      URL is retrieved once and decoded once. */
  lemma RefusedKeywordIsNotRetried(o: Oracles, url: string, h: Stream, cache: Cache, opts: Options)
    requires ChosenDecoder(Url(url)).Some?
    requires RefusesKeywords(ChosenDecoder(Url(url)).value, opts)
    requires o.readHandle(Url(url), cache) == Ok(h)
    ensures Load(o, Url(url), cache, opts) ==
      Attempt(Err(TypeError), [Fetch(Url(url), cache), Invoke(ChosenDecoder(Url(url)).value, h)])
  {
    var d := ChosenDecoder(Url(url)).value;
    assert Decode(o, d, h, opts) == Err(TypeError);
    var first := FirstAttempt(o, url, d, cache, opts);
    assert first == Attempt(Err(TypeError), [Fetch(Url(url), cache), Invoke(d, h)]);
    assert LoadUsingLoader(o, Url(url), d, cache, opts) == first;
    assert GetExtension(Url(url)).Ok? && DecoderFor(GetExtension(Url(url)).value) == Some(d);
  }

  /** A `.json` URL loaded with a keyword raises `TypeError` once its bytes
      decode: one retrieval, one decode, no retry. */
  lemma JsonKeywordRefusedAfterReading(o: Oracles, url: string, h: Stream, cache: Cache, opts: Options)
    requires ChosenDecoder(Url(url)) == Some(JsonDecoder)
    requires PassesKeywords(opts)
    requires o.readHandle(Url(url), cache) == Ok(h)
    requires o.jsonText(h.content).Ok?
    ensures Load(o, Url(url), cache, opts) ==
      Attempt(Err(TypeError), [Fetch(Url(url), cache), Invoke(JsonDecoder, h)])
  {
    assert Decode(o, JsonDecoder, h, opts) == Err(TypeError);
    var first := FirstAttempt(o, url, JsonDecoder, cache, opts);
    assert first == Attempt(Err(TypeError), [Fetch(Url(url), cache), Invoke(JsonDecoder, h)]);
    assert LoadUsingLoader(o, Url(url), JsonDecoder, cache, opts) == first;
    assert GetExtension(Url(url)).Ok? && DecoderFor(GetExtension(Url(url)).value) == Some(JsonDecoder);
  }

  /** With a keyword, bytes that `json.load` cannot decode still raise
      `UnicodeDecodeError`, a `ValueError`: the keyword does not stop the
      purge and the second retrieval, and the second error propagates. */
  lemma UndecodableJsonIsRetriedDespiteKeyword(o: Oracles, url: string, h1: Stream, h2: Stream, cache: Cache, opts: Options)
    requires ChosenDecoder(Url(url)) == Some(JsonDecoder)
    requires PassesKeywords(opts)
    requires o.readHandle(Url(url), cache) == Ok(h1)
    requires o.jsonText(h1.content) == Err(ValueError(UnicodeDecodeError))
    requires o.readHandle(Url(url), Purge) == Ok(h2)
    requires o.jsonText(h2.content) == Err(ValueError(UnicodeDecodeError))
    ensures Load(o, Url(url), cache, opts) ==
      Attempt(Err(ValueError(UnicodeDecodeError)),
              [Fetch(Url(url), cache), Invoke(JsonDecoder, h1), Fetch(Url(url), Purge), Invoke(JsonDecoder, h2)])
  {
    var e := ValueError(UnicodeDecodeError);
    assert Decode(o, JsonDecoder, h1, opts) == Err(e);
    assert Decode(o, JsonDecoder, h2, opts) == Err(e);
    RetriedOnce(o, url, JsonDecoder, h1, h2, e, cache, opts);
  }

  /** A registered URL whose first retrieval and decode succeed is
      retrieved once, decoded once, and the value returned. */
  lemma FirstAttemptSucceeds(o: Oracles, url: string, h: Stream, v: Value, cache: Cache, opts: Options)
    requires ChosenDecoder(Url(url)).Some?
    requires o.readHandle(Url(url), cache) == Ok(h)
    requires Decode(o, ChosenDecoder(Url(url)).value, h, opts) == Ok(v)
    ensures Load(o, Url(url), cache, opts) ==
      Attempt(Ok(v), [Fetch(Url(url), cache), Invoke(ChosenDecoder(Url(url)).value, h)])
  {
  }

  // ---------------------------------------------------------------------
  // Scenarios

  lemma ExtensionOfName(name: string, i: int)
    requires Paths.ExtensionAt(name, i)
    ensures GetExtension(Url(name)) == Ok(name[i..])
  {
    Paths.SplitExtAt(name, i);
  }

  /** `x.ext` for a one-letter stem and a three-letter extension. */
  lemma ShortNameExtension(name: string)
    requires |name| == 5 && name[0] != '.' && name[0] != '/' && name[1] == '.'
    requires name[2] != '.' && name[2] != '/' && name[3] != '.' && name[3] != '/'
    requires name[4] != '.' && name[4] != '/'
    ensures GetExtension(Url(name)) == Ok(name[1..])
  {
    ExtensionOfName(name, 1);
  }

  /** A key with no upper-case letter is its own lower-case form. */
  lemma LowerOfLowerCase(s: string)
    requires forall i :: 0 <= i < |s| ==> !IsAsciiUpper(s[i])
    ensures Lower(s) == s
  {
  }

  lemma PngExtension()
    ensures GetExtension(Url("a.png")) == Ok(".png")
  {
    ShortNameExtension("a.png");
    assert "a.png"[1..] == ".png";
  }

  lemma PngSelectsImageDecoder()
    ensures ChosenDecoder(Url("a.png")) == Some(ImageDecoder)
  {
    PngExtension();
    LowerOfLowerCase(".png");
    assert ".png" in Loaders;
  }

  lemma BinExtension()
    ensures GetExtension(Url("b.bin")) == Ok(".bin")
  {
    ShortNameExtension("b.bin");
    assert "b.bin"[1..] == ".bin";
  }

  lemma BinIsUnregistered()
    ensures GetExtension(Url("b.bin")) == Ok(".bin")
    ensures ChosenDecoder(Url("b.bin")) == None
  {
    BinExtension();
    LowerOfLowerCase(".bin");
    assert ".bin" !in Loaders;
  }

  lemma NpyExtension()
    ensures GetExtension(Url("c.npy")) == Ok(".npy")
  {
    ShortNameExtension("c.npy");
    assert "c.npy"[1..] == ".npy";
  }

  lemma NpySelectsNumpyDecoder()
    ensures ChosenDecoder(Url("c.npy")) == Some(NumpyDecoder)
  {
    NpyExtension();
    LowerOfLowerCase(".npy");
    assert ".npy" in Loaders;
  }

  /** A 10 by 10 grayscale image behind a URL that selects the image
      decoder is returned as 10 by 10 by 3 after one retrieval. */
  lemma GrayscaleScenario(o: Oracles, url: string, h: Stream, pixels: seq<real>)
    requires ChosenDecoder(Url(url)) == Some(ImageDecoder)
    requires |pixels| == 100
    requires o.readHandle(Url(url), DefaultCache) == Ok(h)
    requires o.openImage(h, None) == Ok(NdArray([10, 10], pixels))
    ensures var rgb := ToRgb(NdArray([10, 10], pixels));
      && Load(o, Url(url), DefaultCache, DefaultOptions)
         == Attempt(Ok(ImageValue(rgb)), [Fetch(Url(url), DefaultCache), Invoke(ImageDecoder, h)])
      && rgb.shape == [10, 10, 3]
      && forall m :: 0 <= m < 300 ==> rgb.data[m] == pixels[m / 3]
  {
    GrayscaleDecode(o, h, pixels);
    FirstAttemptSucceeds(o, url, h, ImageValue(ToRgb(NdArray([10, 10], pixels))), DefaultCache, DefaultOptions);
    assert [10, 10] + [3] == [10, 10, 3];
  }

  /** The grayscale scenario for `a.png`. */
  lemma GrayscalePngScenario(o: Oracles, h: Stream, pixels: seq<real>)
    requires o.readHandle(Url("a.png"), DefaultCache) == Ok(h)
    requires o.openImage(h, None) == Ok(NdArray([10, 10], pixels))
    ensures Load(o, Url("a.png"), DefaultCache, DefaultOptions) ==
      Attempt(Ok(ImageValue(ToRgb(NdArray([10, 10], pixels)))), [Fetch(Url("a.png"), DefaultCache), Invoke(ImageDecoder, h)])
  {
    PngSelectsImageDecoder();
    GrayscaleDecode(o, h, pixels);
    FirstAttemptSucceeds(o, "a.png", h, ImageValue(ToRgb(NdArray([10, 10], pixels))), DefaultCache, DefaultOptions);
  }

  lemma GrayscaleDecode(o: Oracles, h: Stream, pixels: seq<real>)
    requires o.openImage(h, None) == Ok(NdArray([10, 10], pixels))
    ensures Decode(o, ImageDecoder, h, DefaultOptions) == Ok(ImageValue(ToRgb(NdArray([10, 10], pixels))))
  {
  }

  /** An unregistered extension whose image decode fails raises the
      fallback's `RuntimeError`. */
  lemma UnknownExtensionScenario(o: Oracles, h: Stream, e: Exception)
    requires o.readHandle(Url("b.bin"), DefaultCache) == Ok(h)
    requires o.openImage(h, None) == Err(e)
    ensures Load(o, Url("b.bin"), DefaultCache, DefaultOptions) ==
      Attempt(Err(RuntimeError(CannotLoadAsImage(Url("b.bin"), LoaderExtensions))),
              [Fetch(Url("b.bin"), DefaultCache), Invoke(ImageDecoder, h)])
  {
    BinIsUnregistered();
    assert Load(o, Url("b.bin"), DefaultCache, DefaultOptions) == Fallback(o, Url("b.bin"), DefaultCache);
  }

  /** After a retryable failure, the purged retrieval's handle is decoded
      and its outcome returned. */
  lemma PurgedRetry(o: Oracles, url: string, d: Decoder, h1: Stream, h2: Stream, e: Exception, cache: Cache, opts: Options)
    requires ChosenDecoder(Url(url)) == Some(d)
    requires o.readHandle(Url(url), cache) == Ok(h1)
    requires Decode(o, d, h1, opts) == Err(e) && Retryable(e)
    requires o.readHandle(Url(url), Purge) == Ok(h2)
    requires !RaisedKeyError(Decode(o, d, h2, opts))
    ensures Load(o, Url(url), cache, opts) ==
      Attempt(Decode(o, d, h2, opts),
              [Fetch(Url(url), cache), Invoke(d, h1), Fetch(Url(url), Purge), Invoke(d, h2)])
  {
    RetriedOnce(o, url, d, h1, h2, e, cache, opts);
  }

  /** A `ValueError` on the first decode is followed by a purge; a good
      second decode is returned. */
  lemma PurgeRecoversScenario(o: Oracles, h1: Stream, h2: Stream, v: NumpyObject)
    requires o.readHandle(Url("c.npy"), DefaultCache) == Ok(h1)
    requires o.loadNumpy(h1, DefaultOptions) == Err(ValueError(PlainValueError))
    requires o.readHandle(Url("c.npy"), Purge) == Ok(h2)
    requires o.loadNumpy(h2, DefaultOptions) == Ok(v)
    ensures Load(o, Url("c.npy"), DefaultCache, DefaultOptions) ==
      Attempt(Ok(NumpyValue(v)),
              [Fetch(Url("c.npy"), DefaultCache), Invoke(NumpyDecoder, h1),
               Fetch(Url("c.npy"), Purge), Invoke(NumpyDecoder, h2)])
  {
    NpySelectsNumpyDecoder();
    assert Decode(o, NumpyDecoder, h1, DefaultOptions) == Err(ValueError(PlainValueError));
    assert Decode(o, NumpyDecoder, h2, DefaultOptions) == Ok(NumpyValue(v));
    PurgedRetry(o, "c.npy", NumpyDecoder, h1, h2, ValueError(PlainValueError), DefaultCache, DefaultOptions);
  }

  /** A decoder that always raises a retryable error makes exactly two
      retrievals, the second one a purge, and the second decode's error
      propagates. */
  lemma RetryBoundScenario(o: Oracles, url: string, cache: Cache, opts: Options)
    requires ChosenDecoder(Url(url)) == Some(NumpyDecoder)
    requires forall s :: o.loadNumpy(s, opts).Err? && Retryable(o.loadNumpy(s, opts).error)
    requires forall c :: o.readHandle(Url(url), c).Ok?
    requires !RefusesKeywords(NumpyDecoder, opts)
    ensures var h1 := o.readHandle(Url(url), cache).value;
      var h2 := o.readHandle(Url(url), Purge).value;
      Load(o, Url(url), cache, opts) ==
        Attempt(Err(o.loadNumpy(h2, opts).error),
                [Fetch(Url(url), cache), Invoke(NumpyDecoder, h1), Fetch(Url(url), Purge), Invoke(NumpyDecoder, h2)])
  {
    var h1 := o.readHandle(Url(url), cache).value;
    var h2 := o.readHandle(Url(url), Purge).value;
    var e := o.loadNumpy(h1, opts).error;
    var e2 := o.loadNumpy(h2, opts).error;
    assert Decode(o, NumpyDecoder, h1, opts) == Err(e);
    assert Decode(o, NumpyDecoder, h2, opts) == Err(e2);
    RetriedOnce(o, url, NumpyDecoder, h1, h2, e, cache, opts);
    var out := LoadUsingLoader(o, Url(url), NumpyDecoder, cache, opts);
    assert out.result == Err(e2) && Retryable(e2);
    assert !RaisedKeyError(out.result);
    assert GetExtension(Url(url)).Ok? && DecoderFor(GetExtension(Url(url)).value) == Some(NumpyDecoder);
  }

  // ---------------------------------------------------------------------
  // Extension examples

  /** The as-written `get_extension` raises `TypeError` for a handle whose
      name has no extension; the intended `RuntimeError` is what the
      corrected definition raises. */
  lemma HandleWithoutExtension()
    ensures GetExtensionAsWritten(Handle(Stream("LICENSE", []))) == Err(TypeError)
    ensures GetExtension(Handle(Stream("LICENSE", []))) == Err(RuntimeError(NoExtension("LICENSE")))
  {
    var name := "LICENSE";
    assert !Paths.HasExtension(name) by {
      assert forall k :: 0 <= k < |name| ==> name[k] != '.';
    }
    var loc := Handle(Stream(name, []));
    assert NameOf(loc) == name;
    assert Paths.SplitExt(name).1 == [];
  }
}

=== FILE: loading.dfy ===
/** The extension-dispatched resource loader of `lucid/misc/io/loading.py`.

    Retrieval (`read_handle`) and the foreign decoders (PIL, numpy, json,
    protobuf, non-UTF-8 codecs) are oracles: total functions supplied in an
    `Oracles` value. Every call the loader makes to the retrieval layer or to
    a decoder is recorded in a trace, and the retry policy is stated as
    properties of that trace. */
module Loading {
  import opened JsonValues
  import opened Runtime
  import opened Strings
  import Paths
  import Utf8
  import Lines

  /** The `cache` argument: `None`, `'purge'`, or any other policy the
      retrieval layer understands. */
  datatype Cache = DefaultCache | Purge | OtherPolicy(policy: string)

  /** The decoders the `loaders` table refers to. */
  datatype Decoder = ImageDecoder | NumpyDecoder | JsonDecoder | TextDecoder | GraphDefDecoder

  /** A numpy array: its shape and its elements in row-major order. */
  datatype NdArray = NdArray(shape: seq<nat>, data: seq<real>)

  /** What `np.load` returns: an array, or an archive of named arrays. */
  datatype NumpyObject = Array(array: NdArray) | Archive(arrays: map<string, NdArray>)

  /** A parsed `GraphDef`; only its node names are kept. */
  datatype GraphDef = GraphDef(nodeNames: seq<string>)

  /** A decoded resource. */
  datatype Value =
    | ImageValue(image: NdArray)
    | NumpyValue(numpy: NumpyObject)
    | JsonValue(json: Json)
    | TextValue(text: string)
    | LinesValue(lines: seq<string>)
    | GraphDefValue(graph: GraphDef)

  /** The keyword arguments `load` forwards to the decoder, each `None`
      when it is not passed: `size` for images, `split` and `encoding` for
      text, `encoding` also for numpy. */
  datatype Options = Options(size: Option<seq<int>>, split: Option<bool>, encoding: Option<string>)

  /** `load` called with no keyword arguments. */
  const DefaultOptions := Options(None, None, None)

  /** The collaborators the loader cannot see: `read_handle` and the foreign
      decoders. `openImage` stands for opening with PIL, resizing to the
      given size when there is one, and converting to a scaled array.
      `jsonText` stands for the first half of `json.load`: reading the
      handle and decoding its bytes with the encoding `json` detects.
      `loadJson` is the whole of `json.load` called without keywords. */
  datatype Oracles = Oracles(
    readHandle: (Location, Cache) -> Result<Stream>,
    openImage: (Stream, Option<seq<int>>) -> Result<NdArray>,
    loadNumpy: (Stream, Options) -> Result<NumpyObject>,
    loadJson: Stream -> Result<Json>,
    jsonText: seq<byte> -> Result<string>,
    parseGraphDef: seq<byte> -> Result<GraphDef>,
    decodeWith: (string, seq<byte>) -> Result<string>)

  /** One call the loader makes to a collaborator. */
  datatype Event = Fetch(location: Location, cache: Cache) | Invoke(decoder: Decoder, handle: Stream)

  /** The outcome of a load together with the calls it made, in order. */
  datatype Attempt = Attempt(result: Result<Value>, trace: seq<Event>)

  // ---------------------------------------------------------------------
  // Registry

  /** The `loaders` table. */
  const Loaders: map<string, Decoder> := map[
    ".png" := ImageDecoder, ".jpg" := ImageDecoder, ".jpeg" := ImageDecoder,
    ".npy" := NumpyDecoder, ".npz" := NumpyDecoder,
    ".json" := JsonDecoder,
    ".txt" := TextDecoder, ".md" := TextDecoder,
    ".pb" := GraphDefDecoder]

  /** `list(loaders)`: the registered extensions in declaration order. */
  const LoaderExtensions: seq<string> :=
    [".png", ".jpg", ".jpeg", ".npy", ".npz", ".json", ".txt", ".md", ".pb"]

  /** The decoder `load` picks for an extension: the lower-cased extension
      looked up in `loaders`. */
  function DecoderFor(ext: string): (r: Option<Decoder>)
    ensures r.Some? <==> Lower(ext) in Loaders
    ensures r.Some? ==> r.value == Loaders[Lower(ext)]
  {
    var key := Lower(ext);
    if key in Loaders then Some(Loaders[key]) else None
  }

  // ---------------------------------------------------------------------
  // Extension resolution

  /** `is_handle`: the name `get_extension` parses. */
  function NameOf(loc: Location): string {
    match loc
    case Url(url) => url
    case Handle(stream) => stream.name
  }

  /** `get_extension` as written: the message is built with
      `"..." + url_or_handle`, which raises `TypeError` when the argument is
      a handle rather than a string. */
  function GetExtensionAsWritten(loc: Location): (r: Result<string>)
    ensures r.Ok? <==> Paths.HasExtension(NameOf(loc))
    ensures r.Ok? ==> r == GetExtension(loc)
    ensures r.Err? && loc.Url? ==> r == GetExtension(loc)
    ensures r.Err? && loc.Handle? ==> r.error == TypeError
  {
    var ext := Paths.SplitExt(NameOf(loc)).1;
    if ext != [] then Ok(ext)
    else if loc.Url? then Err(RuntimeError(NoExtension(loc.url)))
    else Err(TypeError)
  }

  /** `get_extension` with the intended error: `RuntimeError` naming the
      path that has no extension, for URLs and handles alike. */
  function GetExtension(loc: Location): (r: Result<string>)
    ensures r.Ok? <==> Paths.HasExtension(NameOf(loc))
    ensures r.Ok? ==> r.value != [] && r.value[0] == '.' && EndsWith(NameOf(loc), r.value)
    ensures r.Ok? ==> Paths.ExtensionAt(NameOf(loc), |NameOf(loc)| - |r.value|)
    ensures r.Err? ==> r.error == RuntimeError(NoExtension(NameOf(loc)))
  {
    var (root, ext) := Paths.SplitExt(NameOf(loc));
    if ext != [] then
      assert NameOf(loc)[|NameOf(loc)| - |ext|..] == ext;
      Ok(ext)
    else Err(RuntimeError(NoExtension(NameOf(loc))))
  }

  /** The decoder `load` selects for a location, if its extension is
      registered. */
  function ChosenDecoder(loc: Location): Option<Decoder> {
    match GetExtension(loc)
    case Ok(ext) => DecoderFor(ext)
    case Err(_) => None
  }

  // ---------------------------------------------------------------------
  // Decoders

  /** `_load_img`'s handling of `size`: more than two entries are cut down
      to the first two. */
  function TrimSize(size: Option<seq<int>>): (r: Option<seq<int>>)
    ensures r.Some? <==> size.Some?
    ensures r.Some? ==> |r.value| <= 2 && r.value <= size.value
    ensures r.Some? && |size.value| <= 2 ==> r.value == size.value
    ensures r.Some? && |size.value| > 2 ==> |r.value| == 2
  {
    match size
    case None => None
    case Some(s) => if |s| > 2 then Some(s[..2]) else Some(s)
  }

  /** Every element repeated three times in a row. */
  function Repeat3(data: seq<real>): (r: seq<real>)
    ensures |r| == 3 * |data|
    ensures forall m :: 0 <= m < |r| ==> r[m] == data[m / 3]
  {
    if data == [] then []
    else
      var tail := Repeat3(data[1..]);
      var r := [data[0], data[0], data[0]] + tail;
      assert forall m :: 3 <= m < |r| ==> r[m] == tail[m - 3] && (m - 3) / 3 == m / 3 - 1;
      r
  }

  /** `np.repeat(np.expand_dims(a, axis=2), 3, axis=2)` */
  function ToRgb(a: NdArray): (r: NdArray)
    ensures r.shape == a.shape + [3]
    ensures |r.data| == 3 * |a.data|
    ensures forall m :: 0 <= m < |r.data| ==> r.data[m] == a.data[m / 3]
  {
    NdArray(a.shape + [3], Repeat3(a.data))
  }

  /** `_load_img`: an image of rank 3 is returned as decoded, a grayscale
      image of rank 2 gains a channel axis holding three copies of each
      pixel, and any other rank raises `NotImplementedError`. */
  function LoadImage(o: Oracles, s: Stream, size: Option<seq<int>>): (r: Result<NdArray>)
    ensures r.Ok? ==> |r.value.shape| == 3
    ensures o.openImage(s, TrimSize(size)).Err? ==> r == o.openImage(s, TrimSize(size))
    ensures o.openImage(s, TrimSize(size)).Ok? ==>
      var a := o.openImage(s, TrimSize(size)).value;
      && (|a.shape| == 3 ==> r == Ok(a))
      && (|a.shape| == 2 ==> r.Ok? && r.value.shape == a.shape + [3] && |r.value.data| == 3 * |a.data|
                             && forall m :: 0 <= m < |r.value.data| ==> r.value.data[m] == a.data[m / 3])
      && (|a.shape| != 2 && |a.shape| != 3 ==> r == Err(NotImplementedError(UnsupportedRank(|a.shape|))))
  {
    var a :- o.openImage(s, TrimSize(size));
    var rank := |a.shape|;
    if rank == 3 then Ok(a)
    else if rank == 2 then Ok(ToRgb(a))
    else Err(NotImplementedError(UnsupportedRank(rank)))
  }

  /** `_load_text`: the content decoded with `encoding`, split into lines
      when `split` is set. UTF-8 is modelled; other codecs are oracles. */
  function LoadText(o: Oracles, s: Stream, split: bool, encoding: string): (r: Result<Value>)
    ensures r.Ok? ==> (if split then r.value.LinesValue? else r.value.TextValue?)
    ensures encoding == "utf-8" && !split ==> r == (match Utf8.Decode(s.content)
                                                      case Ok(t) => Ok(TextValue(t))
                                                      case Err(e) => Err(e))
    ensures encoding == "utf-8" && split ==> r == (match Utf8.Decode(s.content)
                                                     case Ok(t) => Ok(LinesValue(Lines.SplitLines(t)))
                                                     case Err(e) => Err(e))
  {
    var text :- if encoding == "utf-8" then Utf8.Decode(s.content) else o.decodeWith(encoding, s.content);
    if split then Ok(LinesValue(Lines.SplitLines(text))) else Ok(TextValue(text))
  }

  /** Whether a decoder's signature refuses one of the keywords passed, so
      that calling it raises `TypeError` before the handle is read:
      `_load_img` takes `size` and hands the rest to `PIL.Image.open`,
      which takes neither `split` nor `encoding`; `np.load` takes
      `encoding` only; `_load_text` has no `size`. `json.load` and the
      protobuf loader take any keyword. */
  predicate RefusesKeywords(d: Decoder, opts: Options) {
    match d
    case ImageDecoder => opts.split.Some? || opts.encoding.Some?
    case NumpyDecoder => opts.size.Some? || opts.split.Some?
    case JsonDecoder => false
    case TextDecoder => opts.size.Some?
    case GraphDefDecoder => false
  }

  /** Whether any keyword is passed. `json.load` forwards its keywords to
      the `JSONDecoder` constructor, which takes none of these three, but
      only after it has read the handle and decoded its bytes. */
  predicate PassesKeywords(opts: Options) {
    opts.size.Some? || opts.split.Some? || opts.encoding.Some?
  }

  /** Runs one decoder of the `loaders` table on an open handle. A keyword
      the decoder's signature does not take raises `TypeError` before the
      handle is read. The JSON decoder reads and decodes the bytes first,
      so a keyword reaches `TypeError` only for bytes that decode.
      `_load_text` defaults to no splitting and UTF-8. */
  function Decode(o: Oracles, d: Decoder, s: Stream, opts: Options): (r: Result<Value>)
    ensures RefusesKeywords(d, opts) ==> r == Err(TypeError)
    ensures d.TextDecoder? && opts.size.None? ==>
      r == LoadText(o, s, opts.split == Some(true), if opts.encoding.Some? then opts.encoding.value else "utf-8")
    ensures d.ImageDecoder? && opts.split.None? && opts.encoding.None? ==>
      (r.Ok? <==> LoadImage(o, s, opts.size).Ok?) && (r.Ok? ==> r.value == ImageValue(LoadImage(o, s, opts.size).value))
    ensures d.JsonDecoder? && PassesKeywords(opts) ==>
      && r.Err?
      && (o.jsonText(s.content).Ok? ==> r == Err(TypeError))
      && (o.jsonText(s.content).Err? ==> r.error == o.jsonText(s.content).error)
    ensures d.JsonDecoder? && !PassesKeywords(opts) ==>
      (r.Ok? <==> o.loadJson(s).Ok?) && (r.Ok? ==> r.value == JsonValue(o.loadJson(s).value))
    ensures d.GraphDefDecoder? ==> (r.Ok? <==> o.parseGraphDef(s.content).Ok?)
    ensures r.Ok? ==> !RefusesKeywords(d, opts)
  {
    if RefusesKeywords(d, opts) then Err(TypeError)
    else match d
    case ImageDecoder =>
      var a :- LoadImage(o, s, opts.size);
      Ok(ImageValue(a))
    case NumpyDecoder =>
      var n :- o.loadNumpy(s, opts);
      Ok(NumpyValue(n))
    case JsonDecoder =>
      if PassesKeywords(opts) then
        var text :- o.jsonText(s.content);
        Err(TypeError)
      else
        var j :- o.loadJson(s);
        Ok(JsonValue(j))
    case TextDecoder =>
      LoadText(o, s, opts.split == Some(true), if opts.encoding.Some? then opts.encoding.value else "utf-8")
    case GraphDefDecoder =>
      var g :- o.parseGraphDef(s.content);
      Ok(GraphDefValue(g))
  }

  // ---------------------------------------------------------------------
  // Traces

  function FetchCount(t: seq<Event>): (n: nat)
    ensures n <= |t|
  {
    if t == [] then 0 else (if t[0].Fetch? then 1 else 0) + FetchCount(t[1..])
  }

  function InvokeCount(t: seq<Event>): (n: nat)
    ensures n <= |t|
  {
    if t == [] then 0 else (if t[0].Invoke? then 1 else 0) + InvokeCount(t[1..])
  }

  lemma {:induction false} CountsAppend(a: seq<Event>, b: seq<Event>)
    ensures FetchCount(a + b) == FetchCount(a) + FetchCount(b)
    ensures InvokeCount(a + b) == InvokeCount(a) + InvokeCount(b)
  {
    if a != [] {
      assert (a + b)[1..] == a[1..] + b;
      CountsAppend(a[1..], b);
    } else {
      assert a + b == b;
    }
  }

  /** The exceptions `load_using_loader` treats as a corrupted cache entry:
      `DecodeError` and `ValueError` with its subclasses. */
  predicate Retryable(e: Exception) {
    e.DecodeError? || e.ValueError?
  }

  // ---------------------------------------------------------------------
  // Orchestration

  /** The body of the `try` in `load_using_loader`: retrieve with the
      caller's cache policy, then decode. */
  function FirstAttempt(o: Oracles, url: string, d: Decoder, cache: Cache, opts: Options): (out: Attempt)
    ensures out.trace != [] && out.trace[0] == Fetch(Url(url), cache)
    ensures FetchCount(out.trace) == 1 && InvokeCount(out.trace) <= 1
    ensures |out.trace| <= 2 && (|out.trace| == 2 ==> out.trace[1].Invoke? && out.trace[1].decoder == d)
  {
    match o.readHandle(Url(url), cache)
    case Err(e) => Attempt(Err(e), [Fetch(Url(url), cache)])
    case Ok(h) => Attempt(Decode(o, d, h, opts), [Fetch(Url(url), cache), Invoke(d, h)])
  }

  /** The trace of a retry: the first attempt's calls, the purged
      retrieval, and, when it gave a handle, one more decode. */
  lemma RetryTrace(first: seq<Event>, tail: seq<Event>, loc: Location, d: Decoder, cache: Cache)
    requires first != [] && first[0] == Fetch(loc, cache) && |first| <= 2
    requires FetchCount(first) == 1 && InvokeCount(first) <= 1
    requires |first| == 2 ==> first[1].Invoke? && first[1].decoder == d
    requires tail == [] || (|tail| == 1 && tail[0].Invoke? && tail[0].decoder == d)
    ensures var t := first + [Fetch(loc, Purge)] + tail;
      && t[0] == Fetch(loc, cache)
      && FetchCount(t) == 2
      && InvokeCount(t) <= 2
      && (forall i :: 1 <= i < |t| && t[i].Fetch? ==> t[i] == Fetch(loc, Purge))
      && (forall i :: 0 <= i < |t| && t[i].Invoke? ==> t[i].decoder == d)
      && |t| > |first| && t[..|first|] == first && t[|first|] == Fetch(loc, Purge)
  {
    var t := first + [Fetch(loc, Purge)] + tail;
    CountsAppend(first, [Fetch(loc, Purge)]);
    CountsAppend(first + [Fetch(loc, Purge)], tail);
    assert FetchCount(tail) == 0 && InvokeCount(tail) <= 1;
  }

  /** `load_using_loader`. A handle goes straight to the decoder. A URL is
      retrieved and decoded; on `DecodeError` or `ValueError` it is
      retrieved once more with `cache='purge'` and the fresh handle goes
      through the handle branch, so no third attempt can happen. */
  function LoadUsingLoader(o: Oracles, loc: Location, d: Decoder, cache: Cache, opts: Options): (out: Attempt)
    decreases if loc.Url? then 1 else 0
    ensures loc.Handle? ==> out.trace == [Invoke(d, loc.stream)] && out.result == Decode(o, d, loc.stream, opts)
    ensures loc.Url? ==>
      && out.trace != [] && out.trace[0] == Fetch(loc, cache)
      && 1 <= FetchCount(out.trace) <= 2
      && InvokeCount(out.trace) <= 2
      && (forall i :: 1 <= i < |out.trace| && out.trace[i].Fetch? ==> out.trace[i] == Fetch(loc, Purge))
    ensures forall i :: 0 <= i < |out.trace| && out.trace[i].Invoke? ==> out.trace[i].decoder == d
    ensures loc.Url? ==>
      var first := FirstAttempt(o, loc.url, d, cache, opts);
      && (FetchCount(out.trace) == 2 <==> first.result.Err? && Retryable(first.result.error))
      && (!(first.result.Err? && Retryable(first.result.error)) ==> out == first)
      && (first.result.Err? && Retryable(first.result.error) ==>
            && |out.trace| > |first.trace|
            && out.trace[..|first.trace|] == first.trace
            && out.trace[|first.trace|] == Fetch(loc, Purge)
            && out.result == (match o.readHandle(loc, Purge)
                              case Err(e) => Err(e)
                              case Ok(h) => Decode(o, d, h, opts)))
  {
    match loc
    case Handle(h) => Attempt(Decode(o, d, h, opts), [Invoke(d, h)])
    case Url(url) =>
      var first := FirstAttempt(o, url, d, cache, opts);
      if first.result.Err? && Retryable(first.result.error) then
        match o.readHandle(loc, Purge)
        case Err(e) =>
          RetryTrace(first.trace, [], loc, d, cache);
          assert first.trace + [Fetch(loc, Purge)] + [] == first.trace + [Fetch(loc, Purge)];
          Attempt(Err(e), first.trace + [Fetch(loc, Purge)])
        case Ok(h) =>
          var inner := LoadUsingLoader(o, Handle(h), d, cache, opts);
          RetryTrace(first.trace, inner.trace, loc, d, cache);
          Attempt(inner.result, first.trace + [Fetch(loc, Purge)] + inner.trace)
      else
        first
  }

  /** `RuntimeError` raised when the image fallback fails. */
  function CannotLoad(loc: Location): Exception {
    RuntimeError(CannotLoadAsImage(loc, LoaderExtensions))
  }

  /** The `except KeyError` branch of `load`: one image decode of a handle
      retrieved with the caller's cache policy, ignoring the keyword
      arguments; any failure becomes `RuntimeError` naming the location and
      every registered extension. */
  function Fallback(o: Oracles, loc: Location, cache: Cache): (out: Attempt)
    ensures out.trace != [] && out.trace[0] == Fetch(loc, cache)
    ensures FetchCount(out.trace) == 1
    ensures forall i :: 0 <= i < |out.trace| && out.trace[i].Invoke? ==> out.trace[i].decoder == ImageDecoder
    ensures out.result.Err? ==> out.result.error == CannotLoad(loc)
    ensures out.result.Ok? ==> out.result.value.ImageValue? && |out.result.value.image.shape| == 3
  {
    match o.readHandle(loc, cache)
    case Err(_) => Attempt(Err(CannotLoad(loc)), [Fetch(loc, cache)])
    case Ok(h) =>
      var t := [Fetch(loc, cache), Invoke(ImageDecoder, h)];
      match LoadImage(o, h, None)
      case Err(_) => Attempt(Err(CannotLoad(loc)), t)
      case Ok(a) => Attempt(Ok(ImageValue(a)), t)
  }

  /** True when `r` is a `KeyError`, which `load` routes to the fallback. */
  predicate RaisedKeyError(r: Result<Value>) {
    r.Err? && r.error.KeyError?
  }

  /** `load(url_or_handle, cache, **kwargs)`. */
  function Load(o: Oracles, loc: Location, cache: Cache, opts: Options): (out: Attempt)
    ensures GetExtension(loc).Err? ==> out.trace == [] && out.result == Err(GetExtension(loc).error)
    ensures FetchCount(out.trace) <= 3
  {
    match GetExtension(loc)
    case Err(e) => Attempt(Err(e), [])
    case Ok(ext) =>
      match DecoderFor(ext)
      case None => Fallback(o, loc, cache)
      case Some(d) =>
        var out := LoadUsingLoader(o, loc, d, cache, opts);
        if RaisedKeyError(out.result) then
          var fb := Fallback(o, loc, cache);
          CountsAppend(out.trace, fb.trace);
          Attempt(fb.result, out.trace + fb.trace)
        else
          out
  }

  /** `load` with `get_extension` as written: a handle whose name has no
      extension raises `TypeError` before anything is decoded, and every
      other location loads exactly as with the corrected extension. */
  function LoadAsWritten(o: Oracles, loc: Location, cache: Cache, opts: Options): (out: Attempt)
    ensures Paths.HasExtension(NameOf(loc)) || loc.Url? ==> out == Load(o, loc, cache, opts)
    ensures !Paths.HasExtension(NameOf(loc)) ==> out.trace == []
    ensures !Paths.HasExtension(NameOf(loc)) && loc.Url? ==> out.result == Err(RuntimeError(NoExtension(loc.url)))
    ensures !Paths.HasExtension(NameOf(loc)) && loc.Handle? ==> out.result == Err(TypeError)
  {
    match GetExtensionAsWritten(loc)
    case Err(e) => Attempt(Err(e), [])
    case Ok(_) => Load(o, loc, cache, opts)
  }
}

=== FILE: lowres.dfy ===
/** The offset handling of `lowres_tensor` in
    `lucid/optvis/param/lowres.py`: how the `offset` argument is normalised
    to one integer per axis, and the shapes of the padding and the slice
    that apply it. The tensor contents (the random variable, the bilinear
    resize, the values `SYMMETRIC` padding copies) are not modelled; the
    resized tensor has shape `shape`. */
module Lowres {
  import opened Runtime
  import PyNumbers

  /** A tensor dimension. */
  type Dim = d: int | d > 0 witness 1

  /** One offset entry: a bool, an int or a float. */
  datatype Entry = Flag(b: bool) | Whole(i: int) | Fraction(x: real)

  /** The `offset` argument: `None`, a single entry, or a list. */
  datatype Offset = NoOffset | Scalar(entry: Entry) | Listed(entries: seq<Entry>)

  /** The padding and slice that apply the offsets, when there are
      offsets, and the shape of the result. */
  datatype Plan = Plan(padding: Option<seq<(int, int)>>, sliceBegin: Option<seq<int>>, shape: seq<Dim>)

  /** The outcome of `lowres_tensor`, and the caller's offset list as it is
      afterwards when the caller passed a list. */
  datatype Outcome = Outcome(result: Result<Plan>, callerList: Option<seq<Entry>>)

  /** The integer one entry at axis `n` becomes: `True` gives half the
      ratio of the axis in `shape` to the axis in `underlying_shape`
      (`IndexError` past either shape), `False` gives 0, anything else is
      truncated toward zero by `int`. */
  function NormalizeEntry(e: Entry, n: nat, shape: seq<Dim>, underlying: seq<Dim>): (r: Result<int>)
    ensures e == Flag(true) ==> (r.Ok? <==> n < |shape| && n < |underlying|)
    ensures e == Flag(true) && r.Ok? ==>
      0 <= r.value && 2 * underlying[n] * r.value <= shape[n] < 2 * underlying[n] * (r.value + 1)
    ensures e == Flag(true) && r.Err? ==> r.error == IndexError
    ensures e == Flag(false) ==> r == Ok(0)
    ensures e.Whole? ==> r == Ok(e.i)
    ensures e.Fraction? && e.x >= 0.0 ==> r.Ok? && r.value as real <= e.x < r.value as real + 1.0
    ensures e.Fraction? && e.x < 0.0 ==> r.Ok? && r.value as real - 1.0 < e.x <= r.value as real
  {
    match e
    case Flag(b) =>
      if b then
        if n < |shape| && n < |underlying| then
          var a: int := shape[n];
          var d: int := 2 * (underlying[n] as int);
          var q := a / d;
          assert a == d * q + a % d;
          Ok(q)
        else Err(IndexError)
      else Ok(0)
    case Whole(i) => Ok(i)
    case Fraction(x) => Ok(PyNumbers.Trunc(x))
  }

  /** The integer a `True` entry becomes is `int(shape[n] / underlying_shape[n]
      / 2)` computed with Python's true division. */
  lemma TrueEntryIsHalfRatio(n: nat, shape: seq<Dim>, underlying: seq<Dim>)
    requires n < |shape| && n < |underlying|
    ensures NormalizeEntry(Flag(true), n, shape, underlying)
            == Ok(PyNumbers.Trunc(shape[n] as real / underlying[n] as real / 2.0))
  {
    PyNumbers.TruncOfHalfRatio(shape[n], underlying[n]);
  }

  /** The loop over `range(len(offset))`: each entry is rewritten in place
      with its integer. `list` is the list afterwards; when an entry raises,
      the entries before it are already rewritten and the rest are not. */
  method NormalizeOffsets(entries: seq<Entry>, shape: seq<Dim>, underlying: seq<Dim>)
    returns (r: Result<seq<int>>, list: seq<Entry>)
    ensures r.Ok? <==> forall n :: 0 <= n < |entries| ==> NormalizeEntry(entries[n], n, shape, underlying).Ok?
    ensures r.Ok? ==> |r.value| == |entries| && |list| == |entries|
    ensures r.Ok? ==> forall n :: 0 <= n < |entries| ==>
      r.value[n] == NormalizeEntry(entries[n], n, shape, underlying).value && list[n] == Whole(r.value[n])
    ensures r.Err? ==>
      exists k :: (0 <= k < |entries|
        && NormalizeEntry(entries[k], k, shape, underlying) == Err(r.error)
        && |list| == |entries| && list[k..] == entries[k..]
        && forall n :: 0 <= n < k ==>
             NormalizeEntry(entries[n], n, shape, underlying).Ok?
             && list[n] == Whole(NormalizeEntry(entries[n], n, shape, underlying).value))
  {
    list := entries;
    var ints: seq<int> := [];
    var n := 0;
    while n < |entries|
      invariant 0 <= n <= |entries|
      invariant |ints| == n && |list| == |entries|
      invariant list[n..] == entries[n..]
      invariant forall m :: 0 <= m < n ==>
        && NormalizeEntry(entries[m], m, shape, underlying).Ok?
        && ints[m] == NormalizeEntry(entries[m], m, shape, underlying).value
        && list[m] == Whole(ints[m])
    {
      var v := NormalizeEntry(list[n], n, shape, underlying);
      if v.Err? {
        return Err(v.error), list;
      }
      list := list[n := Whole(v.value)];
      ints := ints + [v.value];
      n := n + 1;
    }
    return Ok(ints), list;
  }

  /** `tf.pad(t, padding, "SYMMETRIC")` on a tensor of shape `shape`: one
      pair per axis, each amount between 0 and the axis, or TensorFlow
      rejects the arguments. */
  function Pad(shape: seq<Dim>, padding: seq<(int, int)>): (r: Result<seq<Dim>>)
    ensures r.Ok? <==> |padding| == |shape| && forall n :: 0 <= n < |shape| ==>
      0 <= padding[n].0 <= shape[n] && 0 <= padding[n].1 <= shape[n]
    ensures r.Err? ==> r.error == InvalidArgumentError
    ensures r.Ok? ==> |r.value| == |shape| && forall n :: 0 <= n < |shape| ==>
      r.value[n] == shape[n] + padding[n].0 + padding[n].1
  {
    if |padding| == |shape| && forall n :: 0 <= n < |shape| ==>
         0 <= padding[n].0 <= shape[n] && 0 <= padding[n].1 <= shape[n]
    then Ok(seq(|shape|, n requires 0 <= n < |shape| => (shape[n] + padding[n].0 + padding[n].1) as Dim))
    else Err(InvalidArgumentError)
  }

  /** `tf.slice(t, begin, size)`: the window must fit inside the tensor. */
  function Slice(shape: seq<Dim>, begin: seq<int>, size: seq<Dim>): (r: Result<seq<Dim>>)
    ensures r.Ok? <==> (|begin| == |shape| && |size| == |shape| &&
      forall n :: 0 <= n < |shape| ==> 0 <= begin[n] && begin[n] + size[n] <= shape[n])
    ensures r.Ok? ==> r.value == size
    ensures r.Err? ==> r.error == InvalidArgumentError
  {
    if |begin| == |shape| && |size| == |shape| &&
       forall n :: 0 <= n < |shape| ==> 0 <= begin[n] && begin[n] + size[n] <= shape[n]
    then Ok(size)
    else Err(InvalidArgumentError)
  }

  /** `[(pad, 0) for pad in offset]` */
  function LeadingPadding(offsets: seq<int>): (r: seq<(int, int)>)
    ensures |r| == |offsets|
    ensures forall n :: 0 <= n < |r| ==> r[n].0 == offsets[n] && r[n].1 == 0
  {
    seq(|offsets|, n requires 0 <= n < |offsets| => (offsets[n], 0))
  }

  /** The entries a non-list offset is replicated into. */
  function Replicate(e: Entry, count: nat): (r: seq<Entry>)
    ensures |r| == count && forall n :: 0 <= n < count ==> r[n] == e
  {
    seq(count, _ => e)
  }

  /** The entries the loop walks: a list as given, anything else repeated
      once per axis of `shape`. */
  function OffsetEntries(shape: seq<Dim>, offset: Offset): seq<Entry>
    requires !offset.NoOffset?
  {
    if offset.Listed? then offset.entries else Replicate(offset.entry, |shape|)
  }

  /** The offsets can be applied: one entry per axis, each turning into an
      amount between 0 and the axis, as `SYMMETRIC` padding demands. */
  predicate OffsetsApply(entries: seq<Entry>, shape: seq<Dim>, underlying: seq<Dim>) {
    |entries| == |shape| && forall n :: 0 <= n < |shape| ==>
      NormalizeEntry(entries[n], n, shape, underlying).Ok?
      && 0 <= NormalizeEntry(entries[n], n, shape, underlying).value <= shape[n]
  }

  /** The `if offset is not None` branch for the entries the loop walks:
      normalise them, pad each axis at its start by its offset, and slice a
      window of `shape` from the origin. */
  method ApplyOffsets(entries: seq<Entry>, shape: seq<Dim>, underlying: seq<Dim>)
    returns (r: Result<Plan>, list: seq<Entry>)
    ensures |list| == |entries|
    ensures r.Ok? <==> OffsetsApply(entries, shape, underlying)
    ensures r.Err? ==> r.error == IndexError || r.error == InvalidArgumentError
    ensures r.Ok? ==>
      && r.value.shape == shape
      && r.value.sliceBegin == Some(seq(|shape|, _ => 0))
      && r.value.padding.Some? && |r.value.padding.value| == |shape|
      && forall n :: 0 <= n < |shape| ==>
           && r.value.padding.value[n] == (NormalizeEntry(entries[n], n, shape, underlying).value, 0)
           && list[n] == Whole(r.value.padding.value[n].0)
  {
    var normalized;
    normalized, list := NormalizeOffsets(entries, shape, underlying);
    if normalized.Err? {
      ghost var k :| 0 <= k < |entries| && NormalizeEntry(entries[k], k, shape, underlying).Err?;
      assert !OffsetsApply(entries, shape, underlying) by {
        if |entries| == |shape| {
          assert !NormalizeEntry(entries[k], k, shape, underlying).Ok?;
        }
      }
      return Err(normalized.error), list;
    }
    var padding := LeadingPadding(normalized.value);
    var padded := Pad(shape, padding);
    if padded.Err? {
      assert !OffsetsApply(entries, shape, underlying) by {
        if |entries| == |shape| {
          ghost var n :| 0 <= n < |shape| && !(0 <= padding[n].0 <= shape[n] && 0 <= padding[n].1 <= shape[n]);
          assert padding[n].0 == NormalizeEntry(entries[n], n, shape, underlying).value && padding[n].1 == 0;
        }
      }
      return Err(padded.error), list;
    }
    var begin := seq(|shape|, _ => 0);
    var sliced := Slice(padded.value, begin, shape);
    assert sliced.Ok?;
    return Ok(Plan(Some(padding), Some(begin), sliced.value)), list;
  }

  /** The offset logic of `lowres_tensor(shape, underlying_shape, offset)`.
      The result's shape is always `shape`; each axis is padded at its
      start only, by its offset, which must lie between 0 and the axis. A
      list the caller passed is rewritten in place. */
  method LowresTensor(shape: seq<Dim>, underlying: seq<Dim>, offset: Offset) returns (out: Outcome)
    ensures offset.NoOffset? ==> out == Outcome(Ok(Plan(None, None, shape)), None)
    ensures offset.Scalar? ==> out.callerList == None
    ensures offset.Listed? ==> out.callerList.Some? && |out.callerList.value| == |offset.entries|
    ensures out.result.Err? ==> out.result.error == IndexError || out.result.error == InvalidArgumentError
    ensures !offset.NoOffset? ==>
      (out.result.Ok? <==> OffsetsApply(OffsetEntries(shape, offset), shape, underlying))
    ensures out.result.Ok? ==> out.result.value.shape == shape
    ensures out.result.Ok? && !offset.NoOffset? ==>
      out.result.value.padding.Some? &&
      var padding := out.result.value.padding.value;
      && out.result.value.sliceBegin == Some(seq(|shape|, _ => 0))
      && |padding| == |shape|
      && (forall n :: 0 <= n < |shape| ==> 0 <= padding[n].0 <= shape[n] && padding[n].1 == 0)
    ensures out.result.Ok? && offset.Scalar? ==>
      out.result.value.padding.Some? && forall n :: 0 <= n < |shape| ==>
        out.result.value.padding.value[n].0 == NormalizeEntry(offset.entry, n, shape, underlying).value
    ensures out.result.Ok? && offset.Listed? ==>
      out.result.value.padding.Some? && out.callerList.Some? && forall n :: 0 <= n < |shape| ==>
        && out.result.value.padding.value[n].0 == NormalizeEntry(offset.entries[n], n, shape, underlying).value
        && out.callerList.value[n] == Whole(out.result.value.padding.value[n].0)
  {
    if offset.NoOffset? {
      return Outcome(Ok(Plan(None, None, shape)), None);
    }
    var entries := OffsetEntries(shape, offset);
    var r, list := ApplyOffsets(entries, shape, underlying);
    return Outcome(r, if offset.Listed? then Some(list) else None);
  }

  // ---------------------------------------------------------------------
  // What the offset does along one axis

  /** The elements `SYMMETRIC` padding puts before an axis: its first `pad`
      elements, mirrored. */
  function Mirror<T>(s: seq<T>): (r: seq<T>)
    ensures |r| == |s|
    ensures forall i :: 0 <= i < |s| ==> r[i] == s[|s| - 1 - i]
  {
    if s == [] then [] else Mirror(s[1..]) + [s[0]]
  }

  /** One axis of `tf.slice(tf.pad(t, [(pad, 0)], "SYMMETRIC"), [0], [len(t)])`:
      the offset shifts the content by `pad` places, keeping the axis
      length; from `pad` on, element `i` is element `i - pad` of the input,
      and the first `pad` places mirror the start of the input. */
  function ShiftAlong<T>(t: seq<T>, pad: nat): (r: seq<T>)
    requires pad <= |t|
    ensures |r| == |t|
    ensures forall i :: pad <= i < |t| ==> r[i] == t[i - pad]
    ensures forall i :: 0 <= i < pad ==> r[i] == t[pad - 1 - i]
  {
    (Mirror(t[..pad]) + t)[..|t|]
  }

  /** A zero offset leaves the axis unchanged. */
  lemma ZeroOffsetIsIdentity<T>(t: seq<T>)
    ensures ShiftAlong(t, 0) == t
  {
    assert Mirror(t[..0]) == [];
    assert [] + t == t;
  }
}

=== FILE: paths.dfy ===
/** The POSIX `os.path` functions the modelled code calls: `splitext`,
    `join` (two arguments) and `dirname`. */
module Paths {
  import opened Strings

  /** `s.rfind(c)`: the last position holding `c`, or -1. */
  function RFind(s: string, c: char): (i: int)
    ensures -1 <= i < |s|
    ensures i >= 0 ==> s[i] == c
    ensures forall k :: i < k < |s| ==> s[k] != c
  {
    if |s| == 0 then -1
    else if s[|s| - 1] == c then |s| - 1
    else RFind(s[..|s| - 1], c)
  }

  predicate OnlyDots(p: string, lo: int, hi: int)
    requires 0 <= lo <= hi <= |p|
  {
    forall k :: lo <= k < hi ==> p[k] == '.'
  }

  /** Reference characterisation of an extension: `i` holds the last dot of
      the path, nothing after it is a dot or a separator, and the final path
      component has a character before `i` that is neither a dot nor a
      separator (so leading dots of a base name never start an extension). */
  ghost predicate ExtensionAt(p: string, i: int) {
    && 0 <= i < |p|
    && p[i] == '.'
    && (forall k :: i < k < |p| ==> p[k] != '.' && p[k] != '/')
    && (exists j :: 0 <= j < i && p[j] != '.' && p[j] != '/' && forall k :: j < k < i ==> p[k] != '/')
  }

  ghost predicate HasExtension(p: string) {
    exists i :: ExtensionAt(p, i)
  }

  /** `os.path.splitext(p)`: the extension keeps its dot and is empty when
      the path has none. */
  function SplitExt(p: string): (r: (string, string))
    ensures r.0 + r.1 == p
    ensures r.1 == [] <==> !HasExtension(p)
    ensures r.1 != [] ==> ExtensionAt(p, |r.0|)
    ensures r.1 != [] ==> r.1[0] == '.'
  {
    var sep := RFind(p, '/');
    var dot := RFind(p, '.');
    if dot > sep && !OnlyDots(p, sep + 1, dot) then
      SplitAtDot(p, sep, dot)
    else
      NoExtensionFound(p, sep, dot);
      (p, "")
  }

  /** The split when the last dot follows a non-dot in the base name. */
  function SplitAtDot(p: string, sep: int, dot: int): (r: (string, string))
    requires sep == RFind(p, '/') && dot == RFind(p, '.')
    requires dot > sep && !OnlyDots(p, sep + 1, dot)
    ensures r.0 + r.1 == p && |r.0| == dot
    ensures ExtensionAt(p, dot)
  {
    var j :| sep + 1 <= j < dot && p[j] != '.';
    assert p[j] != '/';
    assert ExtensionAt(p, dot);
    (p[..dot], p[dot..])
  }

  /** Without a split, no position satisfies the reference characterisation. */
  lemma NoExtensionFound(p: string, sep: int, dot: int)
    requires sep == RFind(p, '/') && dot == RFind(p, '.')
    requires !(dot > sep && !OnlyDots(p, sep + 1, dot))
    ensures !HasExtension(p)
  {
    if i :| ExtensionAt(p, i) {
      assert false;
    }
  }

  /** At most one position is an extension's dot. */
  lemma ExtensionAtUnique(p: string, i: int, k: int)
    requires ExtensionAt(p, i) && ExtensionAt(p, k)
    ensures i == k
  {
  }

  /** The split happens at the position the reference characterisation
      names. */
  lemma SplitExtAt(p: string, i: int)
    requires ExtensionAt(p, i)
    ensures SplitExt(p) == (p[..i], p[i..])
  {
    var r := SplitExt(p);
    ExtensionAtUnique(p, i, |r.0|);
    assert r.0 == p[..i] && r.1 == p[i..];
  }

  predicate Plain(s: string) {
    forall k :: 0 <= k < |s| ==> s[k] != '.' && s[k] != '/'
  }

  /** A base name ending in a character other than a dot, followed by a
      dot and a plain suffix, splits at that dot; `"a."` gives `"."`. */
  lemma SuffixAfterLastDot(stem: string, suffix: string)
    requires stem != [] && stem[|stem| - 1] != '.' && stem[|stem| - 1] != '/'
    requires Plain(suffix)
    ensures SplitExt(stem + "." + suffix) == (stem, "." + suffix)
  {
    var p := stem + "." + suffix;
    assert p[|stem| - 1] == stem[|stem| - 1];
    assert forall k :: |stem| < k < |p| ==> p[k] == suffix[k - |stem| - 1];
    assert ExtensionAt(p, |stem|);
    SplitExtAt(p, |stem|);
    assert p[..|stem|] == stem && p[|stem|..] == "." + suffix;
  }

  /** Leading dots of a base name never start an extension: `.bashrc`,
      `dir/..x`. */
  lemma LeadingDotsAreNotAnExtension(dir: string, dots: string, name: string)
    requires dir == [] || dir[|dir| - 1] == '/'
    requires dots != [] && forall k :: 0 <= k < |dots| ==> dots[k] == '.'
    requires Plain(name)
    ensures !HasExtension(dir + dots + name)
  {
    var p := dir + dots + name;
    var n := |dir| + |dots|;
    forall i | 0 <= i < |p|
      ensures !ExtensionAt(p, i)
    {
      if i >= n {
        assert p[i] == name[i - n];
      } else if i < n - 1 {
        if i >= |dir| {
          assert p[i + 1] == dots[i + 1 - |dir|];
        } else {
          assert p[n - 1] == dots[|dots| - 1];
        }
      } else {
        forall j | 0 <= j < i
          ensures p[j] == '.' || p[j] == '/' || exists k :: j < k < i && p[k] == '/'
        {
          if j >= |dir| {
            assert p[j] == dots[j - |dir|];
          } else if j < |dir| - 1 {
            assert p[|dir| - 1] == '/';
          } else {
            assert p[j] == dir[j];
          }
        }
      }
    }
  }

  /** A dot in a directory name is not an extension of the path. */
  lemma DotInDirectoryIsNotAnExtension(dir: string, name: string)
    requires '.' !in name && '/' !in name
    ensures !HasExtension(dir + "/" + name)
  {
    var p := dir + "/" + name;
    forall i | 0 <= i < |p|
      ensures !ExtensionAt(p, i)
    {
      if i > |dir| {
        assert p[i] == name[i - |dir| - 1];
      } else if i < |dir| {
        assert p[|dir|] == '/';
      }
    }
  }

  /** `os.path.join(a, b)` */
  function Join(a: string, b: string): (r: string)
    ensures EndsWith(r, b)
    ensures StartsWith(b, "/") ==> r == b
    ensures !StartsWith(b, "/") ==> StartsWith(r, a)
  {
    if StartsWith(b, "/") then b
    else if a == [] || EndsWith(a, "/") then a + b
    else a + "/" + b
  }

  /** `s.rstrip('/')` */
  function StripTrailingSlashes(s: string): (r: string)
    ensures StartsWith(s, r)
    ensures r == [] || r[|r| - 1] != '/'
  {
    if s != [] && s[|s| - 1] == '/' then StripTrailingSlashes(s[..|s| - 1]) else s
  }

  /** `os.path.dirname(p)`: everything before the last separator, without
      trailing separators unless it consists of separators only. */
  function DirName(p: string): (r: string)
    ensures StartsWith(p, r)
    ensures '/' !in p ==> r == []
  {
    var head := p[..RFind(p, '/') + 1];
    if head != [] && exists k :: 0 <= k < |head| && head[k] != '/' then StripTrailingSlashes(head) else head
  }

  /** The directory of a file directly inside `dir` is `dir`, when `dir`
      does not end with a separator. */
  lemma DirNameOfChild(dir: string, name: string)
    requires dir != [] && dir[|dir| - 1] != '/'
    requires '/' !in name
    ensures DirName(dir + "/" + name) == dir
  {
    var p := dir + "/" + name;
    var i := RFind(p, '/');
    assert p[|dir|] == '/';
    assert forall k :: |dir| < k < |p| ==> p[k] == name[k - |dir| - 1];
    assert i == |dir|;
    var head := p[..i + 1];
    assert head == dir + "/";
    assert head[|dir| - 1] != '/';
    assert StripTrailingSlashes(head) == StripTrailingSlashes(dir);
  }

  /** Joining a relative name to a directory without a trailing separator
      inserts one separator. */
  lemma JoinRelative(dir: string, name: string)
    requires dir != [] && dir[|dir| - 1] != '/'
    requires !StartsWith(name, "/")
    ensures Join(dir, name) == dir + "/" + name
  {
  }
}

=== FILE: py_numbers.dfy ===
/** Python's integer operators where they differ from Dafny's: `%` takes the
    sign of the divisor, `round` rounds halves to even, and `int` on a float
    truncates toward zero. */
module PyNumbers {

  /** `a // b` in Python: the quotient rounded toward negative infinity. */
  function FloorDiv(a: int, b: int): int
    requires b != 0
  {
    if b > 0 then a / b else (-a) / (-b)
  }

  /** `a % b` in Python: `ZeroDivisionError` is the caller's concern, the
      result has the sign of `b`, and it is what `a // b` leaves over. */
  function FloorMod(a: int, b: int): (r: int)
    requires b != 0
    ensures b > 0 ==> 0 <= r < b
    ensures b < 0 ==> b < r <= 0
    ensures a == FloorDiv(a, b) * b + r
  {
    if b > 0 then a % b
    else
      var q := (-a) / (-b);
      var m := (-a) % (-b);
      assert -a == q * (-b) + m;
      assert q * (-b) == -(q * b);
      -m
  }

  /** `round(d / 2)` for an integer `d`: the nearest integer to half of
      `d`, and of the two nearest the even one when `d` is odd. */
  function RoundHalf(d: int): (r: int)
    ensures d % 2 == 0 ==> 2 * r == d
    ensures d % 2 == 1 ==> (2 * r == d - 1 || 2 * r == d + 1) && r % 2 == 0
  {
    var m := d / 2;
    if d % 2 == 0 then m else if m % 2 == 0 then m else m + 1
  }

  /** `int(x)` for a float `x`: the integer part, rounding toward zero. */
  function Trunc(x: real): (r: int)
    ensures x >= 0.0 ==> r as real <= x < r as real + 1.0
    ensures x < 0.0 ==> r as real - 1.0 < x <= r as real
  {
    if x >= 0.0 then x.Floor else -((-x).Floor)
  }

  /** `int(a / b / 2)` for positive integers, read over the reals, is
      `a // (2 * b)`. */
  lemma TruncOfHalfRatio(a: int, b: int)
    requires a > 0 && b > 0
    ensures Trunc(a as real / b as real / 2.0) == a / (2 * b)
  {
    var d := 2 * b;
    var q := a / d;
    var rem := a % d;
    assert a == q * d + rem && 0 <= rem < d;
    var x := a as real / b as real / 2.0;
    HalfRatio(a as real, b as real);
    assert x == a as real / d as real;
    FloorOfQuotient(a, d, q, rem);
  }

  lemma HalfRatio(a: real, b: real)
    requires b > 0.0
    ensures a / b / 2.0 == a / (2.0 * b)
  {
  }

  lemma FloorOfQuotient(a: int, d: int, q: int, rem: int)
    requires d > 0 && a >= 0 && a == q * d + rem && 0 <= rem < d
    ensures (a as real / d as real).Floor == q
  {
    var x := a as real / d as real;
    var dr := d as real;
    QuotientTimesDivisor(a, d);
    Bracket(a, d, q, rem);
    CancelPositive(q as real, x, dr);
    CancelPositiveStrict(x, (q + 1) as real, dr);
  }

  lemma QuotientTimesDivisor(a: int, d: int)
    requires d > 0
    ensures (a as real / d as real) * d as real == a as real
  {
  }

  lemma CastMul(q: int, d: int)
    ensures (q as real) * (d as real) == (q * d) as real
  {
  }

  lemma Bracket(a: int, d: int, q: int, rem: int)
    requires d > 0 && a == q * d + rem && 0 <= rem < d
    ensures q as real * d as real <= a as real < (q + 1) as real * d as real
  {
    CastMul(q, d);
    CastMul(q + 1, d);
    assert (q + 1) * d == q * d + d;
  }

  lemma CancelPositive(x: real, y: real, d: real)
    requires d > 0.0 && x * d <= y * d
    ensures x <= y
  {
  }

  lemma CancelPositiveStrict(x: real, y: real, d: real)
    requires d > 0.0 && x * d < y * d
    ensures x < y
  {
  }
}

=== FILE: render_tile.dfy ===
/** The tile geometry of `lucid/scratch/atlas_pipeline/render_tile.py`:
    where each cell of a tile is pasted, how a cell is shrunk and centred
    when its size follows its density, and the records `aggregate_tile`
    builds. Images are abstracted: the user's `render` and `aggregate`
    functions are parameters, and a tile is the list of pastes it
    receives. */
module AtlasTiles {
  import opened Runtime
  import PyNumbers

  /** The `params` entries the geometry reads. */
  datatype Params = Params(cellSize: int, nTile: int, scaleDensity: bool)

  /** The first two components of a cell key. */
  datatype Key = Key(x: int, y: int)

  /** A PIL paste box: left, upper, right and lower edges. */
  datatype Box = Box(left: int, top: int, right: int, bottom: int)

  /** Where a cell goes: its box and, when its size follows its density,
      the side its image is resized to. */
  datatype Placement = Placement(box: Box, resizedTo: Option<int>)

  /** One `tile.paste`. */
  datatype Paste<I> = Paste(image: I, placement: Placement)

  /** The rendered tile: its side and the pastes it received, in order. */
  datatype Tile<I> = Tile(size: int, pastes: seq<Paste<I>>)

  /** One element of `aggregate_tile`'s result. */
  datatype Record<A> = Record(aggregate: A, i: int, j: int)

  /** The floating-point part of the density scaling, `int(round(owidth *
      scale))` with `scale` the ratio of the logarithms of the cell's
      density and of the maximum density, is a parameter: `roundedWidth`. */
  type WidthRule = (int, nat, real) -> int

  /** The grid cell of a key: its position is the key modulo `n_tile` on
      each axis, and it spans `cell_size` pixels on each axis. With a
      positive `n_tile` and a non-negative `cell_size` it lies inside the
      tile, whose side is `cell_size * n_tile`. */
  function GridBox(p: Params, key: Key): (r: Box)
    requires p.nTile != 0
    ensures r.left == PyNumbers.FloorMod(key.x, p.nTile) * p.cellSize
    ensures r.top == PyNumbers.FloorMod(key.y, p.nTile) * p.cellSize
    ensures r.right - r.left == p.cellSize && r.bottom - r.top == p.cellSize
    ensures p.nTile > 0 && p.cellSize >= 0 ==>
      && 0 <= r.left && r.right <= p.cellSize * p.nTile
      && 0 <= r.top && r.bottom <= p.cellSize * p.nTile
  {
    var ci := PyNumbers.FloorMod(key.x, p.nTile);
    var cj := PyNumbers.FloorMod(key.y, p.nTile);
    assert (ci + 1) * p.cellSize == ci * p.cellSize + p.cellSize;
    assert (cj + 1) * p.cellSize == cj * p.cellSize + p.cellSize;
    InsideTile(ci, p.nTile, p.cellSize);
    InsideTile(cj, p.nTile, p.cellSize);
    Box(ci * p.cellSize, cj * p.cellSize, (ci + 1) * p.cellSize, (cj + 1) * p.cellSize)
  }

  /** A square of side `width` centred in a square box: the offsets from
      the box's upper-left corner are the same on both axes, as are those
      from its lower-right corner, and the two differ by at most one pixel:
      the upper-left offset is `round` of half the slack, so an odd slack
      puts the odd pixel on whichever side leaves that offset even. */
  function CentredIn(grid: Box, width: int): (r: Box)
    requires grid.right - grid.left == grid.bottom - grid.top
    ensures r.right - r.left == width && r.bottom - r.top == width
    ensures r.top - grid.top == r.left - grid.left
    ensures grid.bottom - r.bottom == grid.right - r.right
    ensures var offsetL := r.left - grid.left;
      var offsetR := grid.right - r.right;
      offsetR == offsetL || offsetR == offsetL + 1 || offsetR == offsetL - 1
    ensures r.left - grid.left == PyNumbers.RoundHalf((grid.right - grid.left) - width)
    ensures ((grid.right - grid.left) - width) % 2 == 1 ==> (r.left - grid.left) % 2 == 0
    ensures 0 <= width <= grid.right - grid.left ==>
      && grid.left <= r.left <= r.right <= grid.right
      && grid.top <= r.top <= r.bottom <= grid.bottom
  {
    var owidth := grid.right - grid.left;
    var offsetL := PyNumbers.RoundHalf(owidth - width);
    var offsetR := owidth - width - offsetL;
    Box(grid.left + offsetL, grid.top + offsetL, grid.right - offsetR, grid.bottom - offsetR)
  }

  /** The placement of one cell: without density scaling the box is its
      grid cell; with it, the image side is the rounded width, at least 1,
      and the box is that square centred in the grid cell. Logarithms of
      non-positive values raise `ValueError`. */
  function CellPlacement(p: Params, key: Key, density: nat, maxDensity: real, roundedWidth: WidthRule): (r: Result<Placement>)
    ensures p.nTile == 0 ==> r == Err(ZeroDivisionError)
    ensures p.nTile != 0 && !p.scaleDensity ==> r == Ok(Placement(GridBox(p, key), None))
    ensures p.nTile != 0 && p.scaleDensity ==> (r.Ok? <==> density > 0 && maxDensity > 0.0)
    ensures p.nTile != 0 && r.Err? ==> r.error == ValueError(MathDomainError)
    ensures r.Ok? && p.scaleDensity ==>
      var width := roundedWidth(p.cellSize, density, maxDensity);
      && r.value.resizedTo == Some(if width < 1 then 1 else width)
      && r.value.box == CentredIn(GridBox(p, key), r.value.resizedTo.value)
  {
    if p.nTile == 0 then Err(ZeroDivisionError)
    else
      var grid := GridBox(p, key);
      if !p.scaleDensity then Ok(Placement(grid, None))
      else if density == 0 || maxDensity <= 0.0 then Err(ValueError(MathDomainError))
      else
        var owidth := grid.right - grid.left;
        var rounded := roundedWidth(owidth, density, maxDensity);
        var width := if rounded < 1 then 1 else rounded;
        Ok(Placement(CentredIn(grid, width), Some(width)))
  }

  /** `render_tile`: renders every cell once, in key order, and pastes it at
      its placement; the first cell whose placement fails stops the loop
      after that cell has been rendered. `rendered` counts the calls to
      `render`. */
  method RenderTile<C, I>(cells: seq<(Key, C)>, p: Params, maxDensity: real,
                          render: C -> I, density: C -> nat, roundedWidth: WidthRule)
    returns (r: Result<Tile<I>>, rendered: nat)
    ensures r.Ok? <==> forall k :: 0 <= k < |cells| ==> CellPlacement(p, cells[k].0, density(cells[k].1), maxDensity, roundedWidth).Ok?
    ensures r.Ok? ==> rendered == |cells| && r.value.size == p.cellSize * p.nTile && |r.value.pastes| == |cells|
    ensures r.Ok? ==> forall k :: 0 <= k < |cells| ==>
      r.value.pastes[k] == Paste(render(cells[k].1), CellPlacement(p, cells[k].0, density(cells[k].1), maxDensity, roundedWidth).value)
    ensures r.Err? ==>
      && 1 <= rendered <= |cells|
      && CellPlacement(p, cells[rendered - 1].0, density(cells[rendered - 1].1), maxDensity, roundedWidth) == Err(r.error)
      && forall k :: 0 <= k < rendered - 1 ==> CellPlacement(p, cells[k].0, density(cells[k].1), maxDensity, roundedWidth).Ok?
  {
    var pastes: seq<Paste<I>> := [];
    var i := 0;
    while i < |cells|
      invariant 0 <= i <= |cells|
      invariant |pastes| == i
      invariant forall k :: 0 <= k < i ==>
        && CellPlacement(p, cells[k].0, density(cells[k].1), maxDensity, roundedWidth).Ok?
        && pastes[k] == Paste(render(cells[k].1), CellPlacement(p, cells[k].0, density(cells[k].1), maxDensity, roundedWidth).value)
    {
      var (key, cell) := cells[i];
      var image := render(cell);
      var placement := CellPlacement(p, key, density(cell), maxDensity, roundedWidth);
      if placement.Err? {
        return Err(placement.error), i + 1;
      }
      pastes := pastes + [Paste(image, placement.value)];
      i := i + 1;
    }
    return Ok(Tile(p.cellSize * p.nTile, pastes)), |cells|;
  }

  /** `aggregate_tile`: one record per cell, in key order, holding the
      user's aggregate of the cell and the first two key components. */
  method AggregateTile<C, A>(cells: seq<(Key, C)>, aggregate: C -> A) returns (tile: seq<Record<A>>)
    ensures |tile| == |cells|
    ensures forall k :: 0 <= k < |cells| ==>
      tile[k].aggregate == aggregate(cells[k].1) && tile[k].i == cells[k].0.x && tile[k].j == cells[k].0.y
  {
    tile := [];
    var i := 0;
    while i < |cells|
      invariant 0 <= i <= |cells|
      invariant |tile| == i
      invariant forall k :: 0 <= k < i ==>
        tile[k].aggregate == aggregate(cells[k].1) && tile[k].i == cells[k].0.x && tile[k].j == cells[k].0.y
    {
      tile := tile + [Record(aggregate(cells[i].1), cells[i].0.x, cells[i].0.y)];
      i := i + 1;
    }
  }

  // ---------------------------------------------------------------------
  // Geometry

  lemma MulMonotone(a: int, b: int, c: int)
    requires a <= b && c >= 0
    ensures a * c <= b * c
  {
  }

  /** Cell `i` of a row of `n` cells of side `c` starts at or after 0 and
      ends at or before the row's end. */
  lemma InsideTile(i: int, n: int, c: int)
    ensures n > 0 && c >= 0 && 0 <= i < n ==> 0 <= i * c && (i + 1) * c <= c * n
  {
    if n > 0 && c >= 0 && 0 <= i < n {
      MulMonotone(0, i, c);
      MulMonotone(i + 1, n, c);
    }
  }

  /** A density-scaled image no wider than its grid cell is pasted inside
      that cell. */
  lemma ScaledBoxInsideGridCell(p: Params, key: Key, density: nat, maxDensity: real, roundedWidth: WidthRule)
    requires p.nTile != 0 && p.scaleDensity && density > 0 && maxDensity > 0.0
    requires roundedWidth(p.cellSize, density, maxDensity) <= p.cellSize
    requires p.cellSize >= 1
    ensures var r := CellPlacement(p, key, density, maxDensity, roundedWidth);
      var grid := GridBox(p, key);
      && r.Ok?
      && grid.left <= r.value.box.left <= r.value.box.right <= grid.right
      && grid.top <= r.value.box.top <= r.value.box.bottom <= grid.bottom
  {
    var rounded := roundedWidth(p.cellSize, density, maxDensity);
    var width := if rounded < 1 then 1 else rounded;
    var d := p.cellSize - width;
    var offsetL := PyNumbers.RoundHalf(d);
    assert 0 <= offsetL <= d;
  }
}

=== FILE: runtime.dfy ===
/** The Python runtime vocabulary shared by every modelled file: bytes,
    exceptions as values, results, and the readable handles that the loader
    and the retrieval layer exchange. */
module Runtime {
  import opened JsonValues

  /** One byte of a `bytes` object. */
  type byte = b: int | 0 <= b < 256

  /** An open readable handle: the bytes it yields and the `.name` it carries. */
  datatype Stream = Stream(name: string, content: seq<byte>)

  /** The first argument of `load`: a URL string or an already open handle. */
  datatype Location = Url(url: string) | Handle(stream: Stream)

  /** Why a `RuntimeError` was raised. */
  datatype RuntimeReason =
    | NoExtension(path: string)
    | CannotLoadAsImage(resource: Location, supported: seq<string>)

  /** `ValueError` and the subclasses the modelled code can meet. */
  datatype ValueErrorKind =
    | PlainValueError
    | JsonDecodeError
    | UnicodeDecodeError
    | UnknownSaveExtension(ext: string, typeName: string, supported: seq<string>)
    | ManifestNotFound(url: string)
    | MathDomainError

  /** What a `KeyError` reports. */
  datatype KeyReason =
    | MissingKey(key: Json)
    | LayerNotFound(query: string, names: seq<Json>)

  /** What a `NotImplementedError` reports. */
  datatype NotImplementedReason =
    | UnsupportedRank(rank: nat)
    | UnsupportedManifestType(kind: Json)
    | UnsupportedArchiveType

  /** A raised exception, as a value. */
  datatype Exception =
    | RuntimeError(reason: RuntimeReason)
    | ValueError(kind: ValueErrorKind)
    | DecodeError
    | KeyError(key: KeyReason)
    | TypeError
    | AttributeError(attribute: string)
    | CantSetAttribute
    | IndexError
    | AssertionError(property: string)
    | NotImplementedError(detail: NotImplementedReason)
    | ZeroDivisionError
    | InvalidArgumentError
    | OSError

  /** A value that may be absent (Python's `None`). */
  datatype Option<+T> = None | Some(value: T)

  /** A computation that returns a value or raises. */
  datatype Result<+T> = Ok(value: T) | Err(error: Exception) {

    predicate IsFailure() {
      Err?
    }

    function PropagateFailure<U>(): Result<U>
      requires Err?
    {
      Err(error)
    }

    function Extract(): T
      requires Ok?
    {
      value
    }
  }
}

=== FILE: save_args.dfy ===
/** The image-shape rule of `Model.suggest_save_args` in
    `lucid/modelzoo/vision_base.py`: the shape found on the graph's input
    placeholder is turned into the suggested `image_shape`. */
module SaveArgs {
  import opened Runtime

  /** `s` ends with `suffix`. */
  predicate EndsWithSeq(s: seq<int>, suffix: seq<int>) {
    |suffix| <= |s| && s[|s| - |suffix|..] == suffix
  }

  /** A shape of rank 4 loses its batch dimension, one of rank 3 is kept,
      and the result is accepted only if none of its dimensions is unknown
      (`-1`); otherwise no shape is inferred. */
  function InferImageShape(shape: seq<int>): (r: Option<seq<int>>)
    ensures r.Some? <==> (|shape| == 3 || |shape| == 4) && -1 !in shape[|shape| - 3..]
    ensures r.Some? ==> |r.value| == 3 && EndsWithSeq(shape, r.value)
  {
    if |shape| == 3 || |shape| == 4 then
      var trimmed := if |shape| == 4 then shape[1..] else shape;
      SuffixOfRank(shape, trimmed);
      if -1 !in trimmed then Some(trimmed) else None
    else None
  }

  lemma SuffixOfRank(shape: seq<int>, trimmed: seq<int>)
    requires |shape| == 3 || |shape| == 4
    requires trimmed == if |shape| == 4 then shape[1..] else shape
    ensures trimmed == shape[|shape| - 3..] && |trimmed| == 3
  {
    if |shape| == 3 {
      assert shape[0..] == shape;
    }
  }

  /** An unknown batch dimension does not stop the inference, since it is
      dropped before the check; an unknown spatial dimension does. */
  lemma UnknownBatchIsDropped(h: int, w: int, c: int)
    requires h != -1 && w != -1 && c != -1
    ensures InferImageShape([-1, h, w, c]) == Some([h, w, c])
    ensures InferImageShape([1, -1, w, c]) == None
  {
    assert [-1, h, w, c][1..] == [h, w, c];
    assert [1, -1, w, c][1..] == [-1, w, c];
  }
}

=== FILE: save_policy.dfy ===
/** Properties of `save`: what is written, in which order, where, and when
    nothing is written at all. */
module SavePolicy {
  import opened Runtime
  import opened Strings
  import Paths
  import Loading
  import opened Saving

  // ---------------------------------------------------------------------
  // Traces

  lemma {:induction false} WrittenAppend(a: seq<Event>, b: seq<Event>)
    ensures Written(a + b) == Written(a) + Written(b)
  {
    if a != [] {
      assert (a + b)[1..] == a[1..] + b;
      WrittenAppend(a[1..], b);
    } else {
      assert a + b == b;
    }
  }

  /** Reading back the writes of a chunk sequence gives the chunks. */
  lemma {:induction false} WrittenWrites(chunks: seq<Chunk>)
    ensures Written(Writes(chunks)) == chunks
  {
    if chunks != [] {
      var t := Writes(chunks);
      assert t == [Wrote(chunks[0])] + Writes(chunks[1..]);
      WrittenAppend([Wrote(chunks[0])], Writes(chunks[1..]));
      WrittenWrites(chunks[1..]);
      assert Written([Wrote(chunks[0])]) == [chunks[0]];
    }
  }

  /** The saver that runs for a payload at a target with a usable
      extension. */
  function Selected(thing: Payload, target: Target): Result<Saver> {
    SaverFor(Paths.SplitExt(PathOf(target)).1, thing)
  }

  /** Whether `save` also marks the object as HTML on GCS. */
  predicate MarksHtml(target: Target) {
    StartsWith(PathOf(target), "gs://") && Paths.SplitExt(PathOf(target)).1 == ".html"
  }

  /** The events a successful save records, before any HTML marking. */
  function SavedBody(chunks: seq<Chunk>, target: Target): seq<Event> {
    if target.ToHandle? then Writes(chunks) else [Opened(target.path)] + Writes(chunks) + [Closed(target.path)]
  }

  /** The HTML marking a successful save appends. */
  function HtmlTail(target: Target): seq<Event> {
    if MarksHtml(target) then [SetHtmlContentType(PathOf(target))] else []
  }

  /** Reading back a save's events, with or without the HTML marking,
      gives the saver's chunks. */
  lemma WrittenOfSavedBody(chunks: seq<Chunk>, target: Target)
    ensures Written(SavedBody(chunks, target)) == chunks
    ensures Written(SavedBody(chunks, target) + HtmlTail(target)) == chunks
  {
    var tail := HtmlTail(target);
    assert Written(tail) == [];
    WrittenWrites(chunks);
    if target.ToHandle? {
      WrittenAppend(Writes(chunks), tail);
    } else {
      var p := target.path;
      WrittenAppend([Opened(p)], Writes(chunks));
      WrittenAppend([Opened(p)] + Writes(chunks), [Closed(p)]);
      WrittenAppend([Opened(p)] + Writes(chunks) + [Closed(p)], tail);
      assert Written([Opened(p)]) == [] && Written([Closed(p)]) == [];
    }
  }

  /** A handle receives exactly the saver's writes; a path that opens
      receives them between opening and closing its scoped handle. */
  lemma SuccessfulSaveTrace(w: Writers, thing: Payload, target: Target, kw: Keywords)
    requires Paths.HasExtension(PathOf(target))
    requires Selected(thing, target).Ok?
    requires target.ToPath? ==> w.open(target.path).None?
    requires Run(w, Selected(thing, target).value, thing, kw).error.None?
    ensures var chunks := Run(w, Selected(thing, target).value, thing, kw).chunks;
      && Save(w, thing, target, kw) == Saved(None, SavedBody(chunks, target) + HtmlTail(target))
      && Written(Save(w, thing, target, kw).trace) == chunks
  {
    var chunks := Run(w, Selected(thing, target).value, thing, kw).chunks;
    assert Save(w, thing, target, kw) == Saved(None, SavedBody(chunks, target) + HtmlTail(target));
    WrittenOfSavedBody(chunks, target);
  }

  /** When the saver raises, what it wrote before raising stays written,
      the exception propagates, no HTML marking follows, and a scoped
      handle is still closed after the writes. */
  lemma FailingSaverStillCloses(w: Writers, thing: Payload, target: Target, kw: Keywords)
    requires Paths.HasExtension(PathOf(target))
    requires Selected(thing, target).Ok?
    requires target.ToPath? ==> w.open(target.path).None?
    requires Run(w, Selected(thing, target).value, thing, kw).error.Some?
    ensures var run := Run(w, Selected(thing, target).value, thing, kw);
      && Save(w, thing, target, kw) == Saved(run.error, SavedBody(run.chunks, target))
      && Written(Save(w, thing, target, kw).trace) == run.chunks
  {
    var run := Run(w, Selected(thing, target).value, thing, kw);
    assert Save(w, thing, target, kw) == Saved(run.error, SavedBody(run.chunks, target));
    WrittenOfSavedBody(run.chunks, target);
  }

  /** A keyword the saver does not take raises `TypeError` inside the
      scoped handle: nothing is written, and a path is still opened and
      closed. */
  lemma RefusedKeywordStillCloses(w: Writers, thing: Payload, target: Target, kw: Keywords)
    requires Paths.HasExtension(PathOf(target))
    requires Selected(thing, target).Ok?
    requires target.ToPath? ==> w.open(target.path).None?
    requires RefusesKeywords(Selected(thing, target).value, kw)
    ensures Save(w, thing, target, kw).error == Some(TypeError)
    ensures Save(w, thing, target, kw).trace == if target.ToHandle? then [] else [Opened(target.path), Closed(target.path)]
  {
    FailingSaverStillCloses(w, thing, target, kw);
    assert Writes([]) == [];
  }

  /** When the scoped `write_handle` cannot be opened, its exception
      propagates before the saver runs, and nothing is written. */
  lemma FailedOpenWritesNothing(w: Writers, thing: Payload, path: string, kw: Keywords)
    requires Paths.HasExtension(path)
    requires Selected(thing, ToPath(path)).Ok?
    requires w.open(path).Some?
    ensures Save(w, thing, ToPath(path), kw) == Saved(w.open(path), [])
    ensures Written(Save(w, thing, ToPath(path), kw).trace) == []
  {
  }

  // ---------------------------------------------------------------------
  // Saver selection

  /** Every key of `savers` is already lower-case. */
  lemma SaverKeysAreLowerCase()
    ensures forall ext :: ext in Savers ==> Lower(ext) == ext
  {
    forall ext | ext in Savers ensures Lower(ext) == ext {
      if ext == ".png" { assert Lower(".png") == ".png"; }
      else if ext == ".jpg" { assert Lower(".jpg") == ".jpg"; }
      else if ext == ".jpeg" { assert Lower(".jpeg") == ".jpeg"; }
      else if ext == ".npy" { assert Lower(".npy") == ".npy"; }
      else if ext == ".npz" { assert Lower(".npz") == ".npz"; }
      else if ext == ".json" { assert Lower(".json") == ".json"; }
      else if ext == ".txt" { assert Lower(".txt") == ".txt"; }
      else { assert Lower(".pb") == ".pb"; }
    }
  }

  /** The saver lookup is by the extension as written: `.TXT` is not a
      saver extension although the loader reads it as text. */
  lemma SelectionIsCaseSensitive()
    ensures ".TXT" !in Savers && Loading.DecoderFor(".TXT") == Some(Loading.TextDecoder)
  {
    assert Lower(".TXT") == ".txt";
  }

  /** The error message's list names exactly the registered extensions, and
      every extension `save` can write is one `load` can read back. */
  lemma SaverExtensionsMatchTable()
    ensures forall ext :: ext in Savers <==> ext in SaverExtensions
    ensures forall ext :: ext in Savers ==> ext in Loading.Loaders
    ensures ".md" in Loading.Loaders && ".md" !in Savers
  {
  }

  /** An unregistered extension with a `str` payload writes the string
      verbatim through `save_str`. */
  lemma UnknownExtensionSavesString(w: Writers, s: string, target: Target, kw: Keywords)
    requires Paths.HasExtension(PathOf(target))
    requires Paths.SplitExt(PathOf(target)).1 !in Savers
    requires target.ToPath? ==> w.open(target.path).None?
    ensures Save(w, StrPayload(s), target, kw).error == None
    ensures Written(Save(w, StrPayload(s), target, kw).trace) == [TextChunk(s)]
  {
    SuccessfulSaveTrace(w, StrPayload(s), target, kw);
  }

  /** An unregistered extension with any other payload raises `ValueError`
      before anything is opened or written. */
  lemma UnknownExtensionRejectsOthers(w: Writers, thing: Payload, target: Target, kw: Keywords)
    requires Paths.HasExtension(PathOf(target))
    requires Paths.SplitExt(PathOf(target)).1 !in Savers
    requires !thing.StrPayload?
    ensures Save(w, thing, target, kw) ==
      Saved(Some(ValueError(UnknownSaveExtension(Paths.SplitExt(PathOf(target)).1, TypeName(thing), SaverExtensions))), [])
  {
  }

  /** Saving a list to a `.txt` target writes one terminated line per
      element, in order. */
  lemma TextListWritesOneLinePerItem(w: Writers, items: seq<Item>, target: Target, kw: Keywords)
    requires Paths.SplitExt(PathOf(target)).1 == ".txt"
    requires target.ToPath? ==> w.open(target.path).None?
    ensures Save(w, ListPayload(items), target, kw).error == None
    ensures Written(Save(w, ListPayload(items), target, kw).trace) == LineChunks(items)
  {
    SuccessfulSaveTrace(w, ListPayload(items), target, kw);
  }
}

=== FILE: saving.dfy ===
/** The extension-dispatched `save` of `lucid/misc/io/saving.py`.

    The writable side of the storage layer (`write_handle`) and the foreign
    serialisers (PIL, numpy, json, protobuf) are not modelled: what a save
    writes is recorded as a trace of events, opening a path is an oracle
    that may raise, and the foreign serialisers are an oracle producing the
    chunks they write before returning or raising. */
module Saving {
  import opened Runtime
  import opened Strings
  import Paths
  import Utf8
  import JsonValues

  /** The second argument of `save`: a path, or an open writable handle
      (anything with `write` and `name`), of which only the name matters. */
  datatype Target = ToPath(path: string) | ToHandle(name: string)

  /** One element of a list payload: a `str`, a `bytes`, or any other object
      together with its type name and its `repr`. */
  datatype Item = StrItem(s: string) | BytesItem(b: seq<byte>) | OtherItem(typeName: string, repr: string)

  /** The object being saved: a `str`, a `list`, or any other object, known
      by its type name. */
  datatype Payload = StrPayload(s: string) | ListPayload(items: seq<Item>) | OtherPayload(typeName: string)

  /** The savers the `savers` table refers to, and `save_str`. */
  datatype Saver = ImageSaver | NpySaver | NpzSaver | JsonSaver | TxtSaver | PbSaver | StrSaver

  /** The argument of one `handle.write` call. */
  datatype Chunk = TextChunk(text: string) | BytesChunk(bytes: seq<byte>)

  /** One effect of a save on the storage layer: the scoped `write_handle`
      opening and closing a path, one `write`, and the GCS content-type
      update for HTML. */
  datatype Event = Opened(path: string) | Wrote(chunk: Chunk) | Closed(path: string) | SetHtmlContentType(path: string)

  /** The keyword arguments `save` forwards to the saver, by name. */
  type Keywords = map<string, JsonValues.Json>

  /** What a saver does to its handle: the chunks it writes, in order, and
      the exception it raises after them, if any. */
  datatype Serialized = Serialized(chunks: seq<Chunk>, error: Option<Exception>)

  /** The storage layer and the foreign serialisers: the exception entering
      `write_handle(path)` raises, if any, and what a saver other than
      `save_txt` and `save_str` does for a payload. */
  datatype Writers = Writers(open: string -> Option<Exception>, serialize: (Saver, Payload, Keywords) -> Serialized)

  /** The outcome of `save`: the exception it raised, if any, and its effects
      in order. */
  datatype Saved = Saved(error: Option<Exception>, trace: seq<Event>)

  // ---------------------------------------------------------------------
  // Registry

  /** The `savers` table. Unlike the loader's, it is looked up with the
      extension exactly as written. */
  const Savers: map<string, Saver> := map[
    ".png" := ImageSaver, ".jpg" := ImageSaver, ".jpeg" := ImageSaver,
    ".npy" := NpySaver, ".npz" := NpzSaver,
    ".json" := JsonSaver,
    ".txt" := TxtSaver,
    ".pb" := PbSaver]

  /** `list(savers.keys())`: the registered extensions in declaration order. */
  const SaverExtensions: seq<string> := [".png", ".jpg", ".jpeg", ".npy", ".npz", ".json", ".txt", ".pb"]

  /** `type(thing).__name__` */
  function TypeName(p: Payload): string {
    match p
    case StrPayload(_) => "str"
    case ListPayload(_) => "list"
    case OtherPayload(name) => name
  }

  /** The saver `save` picks: the table's entry for the extension, else
      `save_str` for a `str`, else `ValueError` naming the extension, the
      payload's type and every registered extension. */
  function SaverFor(ext: string, p: Payload): (r: Result<Saver>)
    ensures r.Ok? <==> ext in Savers || p.StrPayload?
    ensures r.Ok? && r.value != StrSaver ==> ext in Savers && Savers[ext] == r.value
    ensures r.Ok? && r.value == StrSaver ==> ext !in Savers && p.StrPayload?
    ensures r.Err? ==> r.error == ValueError(UnknownSaveExtension(ext, TypeName(p), SaverExtensions))
  {
    if ext in Savers then Ok(Savers[ext])
    else if p.StrPayload? then Ok(StrSaver)
    else Err(ValueError(UnknownSaveExtension(ext, TypeName(p), SaverExtensions)))
  }

  // ---------------------------------------------------------------------
  // Savers

  /** The bytes `save_txt` writes for a list element before terminating it:
      a `str` encoded as UTF-8, a `bytes` as is, anything else its `repr`. */
  function ItemBytes(item: Item): seq<byte> {
    match item
    case StrItem(s) => Utf8.Encode(s)
    case BytesItem(b) => b
    case OtherItem(_, repr) => Utf8.Encode(repr)
  }

  predicate EndsWithNewline(b: seq<byte>) {
    b != [] && b[|b| - 1] == 10
  }

  /** A line with `b"\n"` appended unless it already ends in one. */
  function Terminated(b: seq<byte>): (r: seq<byte>)
    ensures EndsWithNewline(r)
    ensures b <= r && |r| <= |b| + 1
    ensures r == b <==> EndsWithNewline(b)
  {
    if EndsWithNewline(b) then b else b + [10]
  }

  /** `save_txt`: a `str` is written in one call; a list is written one
      terminated line per element, in order; anything else writes nothing. */
  function SaveTxt(p: Payload): (r: seq<Chunk>)
    ensures p.StrPayload? ==> r == [TextChunk(p.s)]
    ensures p.OtherPayload? ==> r == []
    ensures p.ListPayload? ==> |r| == |p.items|
    ensures p.ListPayload? ==> forall k :: 0 <= k < |r| ==>
      && r[k].BytesChunk?
      && EndsWithNewline(r[k].bytes)
      && ItemBytes(p.items[k]) <= r[k].bytes
      && |r[k].bytes| <= |ItemBytes(p.items[k])| + 1
      && (EndsWithNewline(ItemBytes(p.items[k])) ==> r[k].bytes == ItemBytes(p.items[k]))
  {
    match p
    case StrPayload(s) => [TextChunk(s)]
    case ListPayload(items) => LineChunks(items)
    case OtherPayload(_) => []
  }

  function LineChunks(items: seq<Item>): (r: seq<Chunk>)
    ensures |r| == |items|
    ensures forall k :: 0 <= k < |r| ==> r[k] == BytesChunk(Terminated(ItemBytes(items[k])))
  {
    if items == [] then [] else [BytesChunk(Terminated(ItemBytes(items[0])))] + LineChunks(items[1..])
  }

  /** `save_str`: asserts its payload is a `str` and writes it verbatim. */
  function SaveStr(p: Payload): (r: Result<seq<Chunk>>)
    ensures r.Ok? <==> p.StrPayload?
    ensures r.Ok? ==> r.value == [TextChunk(p.s)]
    ensures r.Err? ==> r.error.AssertionError?
  {
    if p.StrPayload? then Ok([TextChunk(p.s)]) else Err(AssertionError("isinstance(object, str)"))
  }

  /** Whether a saver's signature refuses one of the keywords passed:
      `save_npy` and `save_npz` take none, `save_json` takes only
      `indent`; `save_img` hands them to PIL's `save`, and `save_txt`,
      `save_str` and `save_pb` swallow any keyword. */
  predicate RefusesKeywords(saver: Saver, kw: Keywords) {
    match saver
    case NpySaver => kw != map[]
    case NpzSaver => kw != map[]
    case JsonSaver => kw.Keys - {"indent"} != {}
    case _ => false
  }

  /** What one saver does for a payload: a refused keyword raises
      `TypeError` before anything is written. */
  function Run(w: Writers, saver: Saver, p: Payload, kw: Keywords): (r: Serialized)
    ensures RefusesKeywords(saver, kw) ==> r == Serialized([], Some(TypeError))
    ensures saver == TxtSaver ==> r == Serialized(SaveTxt(p), None)
    ensures saver == StrSaver ==> (r.error.None? <==> p.StrPayload?) && (r.error.Some? ==> r.chunks == [])
    ensures saver == StrSaver && p.StrPayload? ==> r.chunks == [TextChunk(p.s)]
    ensures saver in {ImageSaver, PbSaver} ==> r == w.serialize(saver, p, kw)
  {
    if RefusesKeywords(saver, kw) then Serialized([], Some(TypeError))
    else match saver
      case TxtSaver => Serialized(SaveTxt(p), None)
      case StrSaver =>
        (match SaveStr(p)
         case Ok(chunks) => Serialized(chunks, None)
         case Err(e) => Serialized([], Some(e)))
      case _ => w.serialize(saver, p, kw)
  }

  // ---------------------------------------------------------------------
  // Dispatch

  /** The name `save` parses: the path, or the handle's `.name`. */
  function PathOf(t: Target): string {
    match t
    case ToPath(path) => path
    case ToHandle(name) => name
  }

  /** One `Wrote` event per chunk, in order. */
  function Writes(chunks: seq<Chunk>): (r: seq<Event>)
    ensures |r| == |chunks|
    ensures forall k :: 0 <= k < |r| ==> r[k] == Wrote(chunks[k])
  {
    if chunks == [] then [] else [Wrote(chunks[0])] + Writes(chunks[1..])
  }

  /** The chunks a trace writes, in order. */
  function Written(t: seq<Event>): seq<Chunk> {
    if t == [] then []
    else (if t[0].Wrote? then [t[0].chunk] else []) + Written(t[1..])
  }

  /** True when the trace opens or closes no path. */
  predicate OpensNothing(t: seq<Event>) {
    forall k :: 0 <= k < |t| ==> !t[k].Opened? && !t[k].Closed?
  }

  /** `save(thing, url_or_handle, **kw)`: no extension raises `RuntimeError`, an
      unusable extension raises `ValueError`, and both before anything is
      opened or written; a handle is written to directly; a path is opened
      with a scoped `write_handle`, and when that succeeds it is closed
      after the saver's writes, even when the saver raises. */
  function Save(w: Writers, thing: Payload, target: Target, kw: Keywords): (out: Saved)
    ensures !Paths.HasExtension(PathOf(target)) ==> out == Saved(Some(RuntimeError(NoExtension(PathOf(target)))), [])
    ensures out.error.None? ==> Paths.HasExtension(PathOf(target)) && (Paths.SplitExt(PathOf(target)).1 in Savers || thing.StrPayload?)
    ensures target.ToHandle? ==> OpensNothing(out.trace)
    ensures target.ToPath? && w.open(target.path).Some? ==> out.trace == [] && out.error.Some?
    ensures target.ToPath? && out.trace != [] ==>
      && w.open(target.path).None?
      && |out.trace| >= 2
      && out.trace[0] == Opened(target.path)
      && Closed(target.path) in out.trace
  {
    var path := PathOf(target);
    var ext := Paths.SplitExt(path).1;
    if ext == [] then Saved(Some(RuntimeError(NoExtension(path))), [])
    else
      match SaverFor(ext, thing)
      case Err(e) => Saved(Some(e), [])
      case Ok(saver) =>
        if target.ToPath? && w.open(path).Some? then Saved(w.open(path), [])
        else
          var run := Run(w, saver, thing, kw);
          var writes := Writes(run.chunks);
          var body := if target.ToHandle? then writes else [Opened(path)] + writes + [Closed(path)];
          assert target.ToPath? ==> body[|body| - 1] == Closed(path);
          if run.error.Some? then Saved(run.error, body)
          else if StartsWith(path, "gs://") && ext == ".html" then Saved(None, body + [SetHtmlContentType(path)])
          else Saved(None, body)
  }
}

=== FILE: strings.dfy ===
/** The `str` methods the modelled code calls. Case mapping covers ASCII
    letters only. */
module Strings {

  predicate IsAsciiUpper(c: char) {
    'A' <= c <= 'Z'
  }

  function LowerChar(c: char): char {
    if IsAsciiUpper(c) then (c as int + 32) as char else c
  }

  /** `s.lower()` */
  function Lower(s: string): (r: string)
    ensures |r| == |s|
    ensures forall i :: 0 <= i < |s| ==> r[i] == LowerChar(s[i])
  {
    seq(|s|, i requires 0 <= i < |s| => LowerChar(s[i]))
  }

  /** `s.startswith(prefix)` */
  predicate StartsWith(s: string, prefix: string) {
    |prefix| <= |s| && s[..|prefix|] == prefix
  }

  /** `s.endswith(suffix)` */
  predicate EndsWith(s: string, suffix: string) {
    |suffix| <= |s| && s[|s| - |suffix|..] == suffix
  }

  /** `needle in hay` for strings: needle occurs at some offset of hay. */
  predicate OccursAt(hay: string, needle: string, k: int) {
    0 <= k && k + |needle| <= |hay| && hay[k..k + |needle|] == needle
  }

  /** Substring search, scanning offsets from `k` upwards. */
  function ContainsFrom(hay: string, needle: string, k: nat): (b: bool)
    requires k <= |hay|
    decreases |hay| - k
    ensures b <==> exists j :: k <= j <= |hay| && OccursAt(hay, needle, j)
  {
    if OccursAt(hay, needle, k) then true
    else if k == |hay| then false
    else ContainsFrom(hay, needle, k + 1)
  }

  /** `needle in hay` */
  function Contains(hay: string, needle: string): (b: bool)
    ensures b <==> exists j :: 0 <= j <= |hay| && OccursAt(hay, needle, j)
  {
    ContainsFrom(hay, needle, 0)
  }
}

=== FILE: text_round_trip.dfy ===
/** Saving a list of lines to `.txt` and loading it back with `split=True`
    gives the list back. */
module TextRoundTrip {
  import opened Runtime
  import Strings
  import Utf8
  import Lines
  import Paths
  import Loading
  import Saving
  import SavePolicy
  import LoadPolicy

  /** The bytes a file holds after the given writes: byte chunks as is, text
      chunks encoded as UTF-8. */
  function FileBytes(chunks: seq<Saving.Chunk>): seq<byte> {
    if chunks == [] then []
    else
      (match chunks[0]
       case BytesChunk(b) => b
       case TextChunk(t) => Utf8.Encode(t))
      + FileBytes(chunks[1..])
  }

  /** The list payload of a list of strings. */
  function StrItems(lines: seq<string>): (r: seq<Saving.Item>)
    ensures |r| == |lines|
    ensures forall k :: 0 <= k < |r| ==> r[k] == Saving.StrItem(lines[k])
  {
    if lines == [] then [] else [Saving.StrItem(lines[0])] + StrItems(lines[1..])
  }

  /** A line without boundaries is written as its encoding followed by one
      newline byte. */
  lemma TerminatedLine(line: string)
    requires Lines.NoBoundary(line)
    ensures Saving.Terminated(Utf8.Encode(line)) == Utf8.Encode(line + "\n")
  {
    Utf8.EncodeAppend(line, "\n");
    assert Utf8.Encode("\n") == [10];
    if line != [] {
      Utf8.EncodeEndsWithNewline(line);
      assert !Lines.IsLineBoundary(line[|line| - 1]);
    }
  }

  /** The bytes `save_txt` writes for lines without boundaries are the
      UTF-8 encoding of the newline-joined text. */
  lemma {:induction false} WrittenLinesAreJoinedText(lines: seq<string>)
    requires Lines.AllWithoutBoundary(lines)
    ensures FileBytes(Saving.LineChunks(StrItems(lines))) == Utf8.Encode(Lines.JoinLines(lines))
  {
    if lines != [] {
      var items := StrItems(lines);
      assert items[1..] == StrItems(lines[1..]);
      TerminatedLine(lines[0]);
      WrittenLinesAreJoinedText(lines[1..]);
      Utf8.EncodeAppend(lines[0] + "\n", Lines.JoinLines(lines[1..]));
    }
  }

  /** The bytes a `.txt` save of lines without boundaries leaves in the
      file. */
  lemma SavedLinesBytes(w: Saving.Writers, kw: Saving.Keywords, lines: seq<string>, path: string)
    requires Paths.SplitExt(path).1 == ".txt"
    requires w.open(path).None?
    requires Lines.AllWithoutBoundary(lines)
    ensures var saved := Saving.Save(w, Saving.ListPayload(StrItems(lines)), Saving.ToPath(path), kw);
      && saved.error == None
      && FileBytes(Saving.Written(saved.trace)) == Utf8.Encode(Lines.JoinLines(lines))
  {
    SavePolicy.TextListWritesOneLinePerItem(w, StrItems(lines), Saving.ToPath(path), kw);
    WrittenLinesAreJoinedText(lines);
  }

  /** A `.txt` name selects the text decoder. */
  lemma TxtSelectsTextDecoder(path: string)
    requires Paths.SplitExt(path).1 == ".txt"
    ensures Loading.ChosenDecoder(Url(path)) == Some(Loading.TextDecoder)
  {
    assert Strings.Lower(".txt") == ".txt";
  }

  /** The text decoder with `split=True` reads the encoding of
      newline-joined lines back as those lines. */
  lemma DecodeJoinedLines(o: Loading.Oracles, lines: seq<string>, h: Stream)
    requires Lines.AllWithoutBoundary(lines)
    requires h.content == Utf8.Encode(Lines.JoinLines(lines))
    ensures Loading.Decode(o, Loading.TextDecoder, h, Loading.Options(None, Some(true), None))
            == Ok(Loading.LinesValue(lines))
  {
    Utf8.DecodeEncode(Lines.JoinLines(lines));
    Lines.SplitJoin(lines);
  }

  /** Loading the encoding of newline-joined lines from a `.txt` URL with
      `split=True` retrieves once and gives the lines back. */
  lemma LoadJoinedLines(o: Loading.Oracles, lines: seq<string>, path: string, cache: Loading.Cache, h: Stream)
    requires Paths.SplitExt(path).1 == ".txt"
    requires Lines.AllWithoutBoundary(lines)
    requires h.content == Utf8.Encode(Lines.JoinLines(lines))
    requires o.readHandle(Url(path), cache) == Ok(h)
    ensures Loading.Load(o, Url(path), cache, Loading.Options(None, Some(true), None)) ==
      Loading.Attempt(Ok(Loading.LinesValue(lines)), [Loading.Fetch(Url(path), cache), Loading.Invoke(Loading.TextDecoder, h)])
  {
    TxtSelectsTextDecoder(path);
    DecodeJoinedLines(o, lines, h);
    LoadPolicy.FirstAttemptSucceeds(o, path, h, Loading.LinesValue(lines), cache, Loading.Options(None, Some(true), None));
  }

  /** The round trip: lines without boundaries saved to a `.txt` path, then
      retrieved from that path as the bytes written and loaded as UTF-8
      text with `split=True`, come back unchanged after one retrieval. */
  lemma SaveThenLoadLines(w: Saving.Writers, kw: Saving.Keywords, o: Loading.Oracles, lines: seq<string>, path: string,
                          cache: Loading.Cache, name: string)
    requires Paths.SplitExt(path).1 == ".txt"
    requires w.open(path).None?
    requires Lines.AllWithoutBoundary(lines)
    requires var saved := Saving.Save(w, Saving.ListPayload(StrItems(lines)), Saving.ToPath(path), kw);
      o.readHandle(Url(path), cache) == Ok(Stream(name, FileBytes(Saving.Written(saved.trace))))
    ensures var out := Loading.Load(o, Url(path), cache, Loading.Options(None, Some(true), None));
      && out.result == Ok(Loading.LinesValue(lines))
      && Loading.FetchCount(out.trace) == 1
  {
    SavedLinesBytes(w, kw, lines, path);
    var h := Stream(name, Utf8.Encode(Lines.JoinLines(lines)));
    LoadJoinedLines(o, lines, path, cache, h);
    var t := [Loading.Fetch(Url(path), cache), Loading.Invoke(Loading.TextDecoder, h)];
    assert t[1..][1..] == [];
  }
}

=== FILE: utf8.dfy ===
/** The strict UTF-8 codec of `str.encode()` and `bytes.decode("utf-8")`,
    following the encoding scheme of RFC 3629: the decoder rejects overlong
    forms, surrogates and values past U+10FFFF with `UnicodeDecodeError`. */
module Utf8 {
  import opened Runtime

  predicate IsContinuation(b: byte) {
    0x80 <= b < 0xC0
  }

  /** The one to four bytes that encode one scalar value. */
  function EncodeChar(c: char): (b: seq<byte>)
    ensures 1 <= |b| <= 4
    ensures (c as int < 0x80) <==> |b| == 1
    ensures |b| == 1 ==> b[0] == c as int
    ensures |b| > 1 ==> IsContinuation(b[|b| - 1])
  {
    var v := c as int;
    if v < 0x80 then [v]
    else if v < 0x800 then [0xC0 + v / 64, 0x80 + v % 64]
    else if v < 0x10000 then [0xE0 + v / 4096, 0x80 + (v / 64) % 64, 0x80 + v % 64]
    else [0xF0 + v / 262144, 0x80 + (v / 4096) % 64, 0x80 + (v / 64) % 64, 0x80 + v % 64]
  }

  /** `s.encode("utf-8")` */
  function Encode(s: string): (b: seq<byte>)
    ensures |b| >= |s|
    ensures b == [] <==> s == []
  {
    if s == [] then [] else EncodeChar(s[0]) + Encode(s[1..])
  }

  /** The scalar value a well-formed sequence at the head of `b` encodes,
      with its length; `None` when the head is not well formed. */
  function DecodeHead(b: seq<byte>): (r: Option<(char, nat)>)
    requires b != []
    ensures r.Some? ==> 1 <= r.value.1 <= |b|
  {
    var b0 := b[0] as int;
    if b0 < 0x80 then
      Some((b0 as char, 1))
    else if 0xC2 <= b0 < 0xE0 && |b| >= 2 && IsContinuation(b[1]) then
      Some((((b0 - 0xC0) * 64 + Payload(b[1])) as char, 2))
    else if 0xE0 <= b0 < 0xF0 && |b| >= 3 && IsContinuation(b[1]) && IsContinuation(b[2]) then
      var v := (b0 - 0xE0) * 4096 + Payload(b[1]) * 64 + Payload(b[2]);
      if 0x800 <= v && !(0xD800 <= v < 0xE000) then Some((v as char, 3)) else None
    else if 0xF0 <= b0 < 0xF5 && |b| >= 4 && IsContinuation(b[1]) && IsContinuation(b[2]) && IsContinuation(b[3]) then
      var v := (b0 - 0xF0) * 262144 + Payload(b[1]) * 4096 + Payload(b[2]) * 64 + Payload(b[3]);
      if 0x10000 <= v <= 0x10FFFF then Some((v as char, 4)) else None
    else
      None
  }

  /** The six value bits a continuation byte carries. */
  function Payload(b: byte): int
    requires IsContinuation(b)
  {
    b as int - 0x80
  }

  /** `b.decode("utf-8")` */
  function Decode(b: seq<byte>): (r: Result<string>)
    decreases |b|
    ensures r.Err? ==> r.error == ValueError(UnicodeDecodeError)
  {
    if b == [] then Ok([])
    else
      match DecodeHead(b)
      case None => Err(ValueError(UnicodeDecodeError))
      case Some((c, n)) =>
        var rest :- Decode(b[n..]);
        Ok([c] + rest)
  }

  lemma DivUnique(v: int, d: int, q: int, r: int)
    requires d == 64 || d == 4096 || d == 262144
    requires v == q * d + r && 0 <= r < d
    ensures v / d == q && v % d == r
  {
    if d == 64 {
    } else if d == 4096 {
    } else {
    }
  }

  /** Splitting off six bits at a time: the base-64 digits of `v`. */
  lemma Digits64(v: nat)
    ensures v / 4096 == (v / 64) / 64
    ensures v / 262144 == (v / 4096) / 64
  {
    var q := v / 64;
    DivUnique(q, 64, q / 64, q % 64);
    DivUnique(v, 4096, q / 64, (q % 64) * 64 + v % 64);
    var q2 := v / 4096;
    DivUnique(q2, 64, q2 / 64, q2 % 64);
    DivUnique(v, 262144, q2 / 64, (q2 % 64) * 4096 + v % 4096);
  }

  lemma DecodeHeadOfEncodeChar(c: char, rest: seq<byte>)
    ensures DecodeHead(EncodeChar(c) + rest) == Some((c, |EncodeChar(c)|))
  {
    var v := c as int;
    var b := EncodeChar(c) + rest;
    if v < 0x80 {
    } else if v < 0x800 {
      assert b[0] as int - 0xC0 == v / 64 && Payload(b[1]) == v % 64;
    } else if v < 0x10000 {
      Digits64(v);
      assert b[0] as int - 0xE0 == v / 4096;
      assert Payload(b[1]) == (v / 64) % 64;
      assert Payload(b[2]) == v % 64;
    } else {
      Digits64(v);
      assert b[0] as int - 0xF0 == v / 262144;
      assert Payload(b[1]) == (v / 4096) % 64;
      assert Payload(b[2]) == (v / 64) % 64;
      assert Payload(b[3]) == v % 64;
    }
  }

  /** Decoding undoes encoding. */
  lemma {:induction false} DecodeEncode(s: string)
    ensures Decode(Encode(s)) == Ok(s)
  {
    if s != [] {
      var head := EncodeChar(s[0]);
      var b := Encode(s);
      assert b == head + Encode(s[1..]);
      DecodeHeadOfEncodeChar(s[0], Encode(s[1..]));
      assert b[|head|..] == Encode(s[1..]);
      DecodeEncode(s[1..]);
      assert s == [s[0]] + s[1..];
    }
  }

  /** Encoding is a homomorphism from concatenation of strings to
      concatenation of bytes. */
  lemma {:induction false} EncodeAppend(a: string, b: string)
    ensures Encode(a + b) == Encode(a) + Encode(b)
  {
    if a != [] {
      assert (a + b)[1..] == a[1..] + b;
      EncodeAppend(a[1..], b);
    } else {
      assert a + b == b;
    }
  }

  /** The encoding of a non-empty string ends with the byte of a newline
      exactly when the string ends with a newline. */
  lemma EncodeEndsWithNewline(s: string)
    requires s != []
    ensures Encode(s)[|Encode(s)| - 1] == 10 <==> s[|s| - 1] == '\n'
  {
    var init := s[..|s| - 1];
    var last := s[|s| - 1];
    assert s == init + [last];
    EncodeAppend(init, [last]);
    assert Encode([last]) == EncodeChar(last) + Encode([]);
  }
}

=== FILE: vision_base.dfy ===
/** The model metadata logic of `lucid/modelzoo/vision_base.py`: layer
    records built from a JSON manifest, layer lookup by name, the
    construction of a frozen-graph model from its manifest, and the image
    shape rule of `suggest_save_args`. TensorFlow graph work is not part
    of this model. */
module VisionBase {
  import opened JsonValues
  import opened Runtime
  import opened Strings
  import Paths
  import Loading

  // ---------------------------------------------------------------------
  // Layers

  /** A `Layer`: the class of the model it belongs to (by name), and the
      name, depth and tag set from the manifest. */
  datatype Layer = Layer(modelClass: string, name: Json, depth: Json, tags: set<Json>)

  /** Whether a JSON value can be put in a Python set. */
  predicate Hashable(j: Json) {
    !j.Array? && !j.Object?
  }

  /** `set(tags)`: a list gives its elements, which must be hashable; a
      string gives its characters; an object gives its keys; anything else
      is not iterable. */
  function TagSet(tags: Json): (r: Result<set<Json>>)
    ensures tags.Array? ==> (r.Ok? <==> forall k :: 0 <= k < |tags.items| ==> Hashable(tags.items[k]))
    ensures tags.Array? && r.Ok? ==> forall x :: x in r.value <==> x in tags.items
    ensures tags.String? ==> r.Ok? && forall x :: x in r.value <==> exists c :: c in tags.s && x == String([c])
    ensures tags.Object? ==> r.Ok? && forall x :: x in r.value <==> exists key :: key in tags.fields && x == String(key)
    ensures tags.Null? || tags.Number? || tags.Bool? ==> r == Err(TypeError)
  {
    match tags
    case Array(items) =>
      if forall k :: 0 <= k < |items| ==> Hashable(items[k]) then Ok(set k | 0 <= k < |items| :: items[k])
      else Err(TypeError)
    case String(s) => Ok(set c | c in s :: String([c]))
    case Object(fields) => Ok(set key | key in fields :: String(key))
    case _ => Err(TypeError)
  }

  /** One iteration of `_layers_from_list_of_dicts`: `name`, `depth` and
      `tags` are looked up in that order, then the `Layer` is built. */
  function LayerFromDict(modelClass: string, info: Json): (r: Result<Layer>)
    ensures !info.Object? ==> r == Err(TypeError)
    ensures info.Object? && "name" !in info.fields ==> r == Err(KeyError(MissingKey(String("name"))))
    ensures info.Object? && "name" in info.fields && "depth" !in info.fields ==> r == Err(KeyError(MissingKey(String("depth"))))
    ensures info.Object? && "name" in info.fields && "depth" in info.fields && "tags" !in info.fields ==>
      r == Err(KeyError(MissingKey(String("tags"))))
    ensures r.Ok? ==>
      && info.Object? && "name" in info.fields && "depth" in info.fields && "tags" in info.fields
      && r.value.modelClass == modelClass
      && r.value.name == info.fields["name"]
      && r.value.depth == info.fields["depth"]
      && TagSet(info.fields["tags"]) == Ok(r.value.tags)
  {
    if !info.Object? then Err(TypeError)
    else if "name" !in info.fields then Err(KeyError(MissingKey(String("name"))))
    else if "depth" !in info.fields then Err(KeyError(MissingKey(String("depth"))))
    else if "tags" !in info.fields then Err(KeyError(MissingKey(String("tags"))))
    else
      var tags :- TagSet(info.fields["tags"]);
      Ok(Layer(modelClass, info.fields["name"], info.fields["depth"], tags))
  }

  /** `_layers_from_list_of_dicts`: one layer per entry, in order; the
      first entry that cannot be turned into a layer raises. */
  function LayersFromListOfDicts(modelClass: string, infos: seq<Json>): (r: Result<seq<Layer>>)
    ensures r.Ok? <==> forall k :: 0 <= k < |infos| ==> LayerFromDict(modelClass, infos[k]).Ok?
    ensures r.Ok? ==> |r.value| == |infos| && forall k :: 0 <= k < |infos| ==> r.value[k] == LayerFromDict(modelClass, infos[k]).value
    ensures r.Err? ==> exists k :: 0 <= k < |infos| && LayerFromDict(modelClass, infos[k]) == Err(r.error)
                                   && forall m :: 0 <= m < k ==> LayerFromDict(modelClass, infos[m]).Ok?
  {
    if infos == [] then Ok([])
    else
      var first :- LayerFromDict(modelClass, infos[0]);
      var rest :- LayersFromListOfDicts(modelClass, infos[1..]);
      Ok([first] + rest)
  }

  /** What `layer[key]` can return: an instance attribute's value. */
  datatype AttributeValue = NoneValue | ClassValue(className: string) | JsonAttribute(json: Json) | TagsValue(tags: set<Json>)

  /** The keys of a layer's `__dict__`. */
  const InstanceAttributes: set<string> := {"_activations", "model_class", "name", "depth", "tags"}

  /** `order` lists the elements of `tags` once each: one possible iteration
      order of the set. */
  ghost predicate IsEnumeration(order: seq<Json>, tags: set<Json>) {
    && |order| == |tags|
    && (forall x :: x in order <==> x in tags)
  }

  /** `Layer.__getitem__`: `'type'` gives the first tag in the set's
      iteration order `order`, or `IndexError` for an empty set; any other
      key is looked up among the instance attributes, where `_activations`
      is still `None`. */
  function GetItem(layer: Layer, key: string, order: seq<Json>): (r: Result<AttributeValue>)
    requires IsEnumeration(order, layer.tags)
    ensures key == "type" ==> (r.Ok? <==> layer.tags != {})
    ensures key == "type" && r.Ok? ==> r.value.JsonAttribute? && r.value.json in layer.tags
    ensures key == "type" && r.Err? ==> r.error == IndexError
    ensures key != "type" ==> (r.Ok? <==> key in InstanceAttributes)
    ensures key != "type" && r.Err? ==> r.error == AttributeError(key)
    ensures key == "name" ==> r == Ok(JsonAttribute(layer.name))
    ensures key == "depth" ==> r == Ok(JsonAttribute(layer.depth))
    ensures key == "tags" ==> r == Ok(TagsValue(layer.tags))
    ensures key == "model_class" ==> r == Ok(ClassValue(layer.modelClass))
  {
    if key == "type" then
      if order == [] then Err(IndexError)
      else
        assert order[0] in order;
        Ok(JsonAttribute(order[0]))
    else if key == "_activations" then Ok(NoneValue)
    else if key == "model_class" then Ok(ClassValue(layer.modelClass))
    else if key == "name" then Ok(JsonAttribute(layer.name))
    else if key == "depth" then Ok(JsonAttribute(layer.depth))
    else if key == "tags" then Ok(TagsValue(layer.tags))
    else Err(AttributeError(key))
  }

  // ---------------------------------------------------------------------
  // Layer lookup

  /** The names of the layers, in order. */
  function Names(layers: seq<Layer>): (r: seq<Json>)
    ensures |r| == |layers| && forall k :: 0 <= k < |r| ==> r[k] == layers[k].name
  {
    seq(|layers|, k requires 0 <= k < |layers| => layers[k].name)
  }

  predicate ExactMatch(l: Layer, query: string) {
    l.name == String(query)
  }

  /** The fuzzy test of `get_layer`: the lower-cased query occurs in the
      lower-cased layer name. */
  predicate FuzzyMatch(l: Layer, query: string) {
    l.name.String? && Contains(Lower(l.name.s), Lower(query))
  }

  /** The fuzzy scan passed the first `i` layers: each has a string name
      that does not match. */
  predicate ScannedWithoutMatch(layers: seq<Layer>, query: string, i: int)
    requires 0 <= i <= |layers|
  {
    forall k :: 0 <= k < i ==> layers[k].name.String? && !FuzzyMatch(layers[k], query)
  }

  predicate NoExactMatch(layers: seq<Layer>, query: string) {
    forall k :: 0 <= k < |layers| ==> !ExactMatch(layers[k], query)
  }

  /** `Model.get_layer`: the first layer named exactly `query`; failing
      that, the first layer whose name contains it ignoring case, where a
      layer with a non-string name stops the scan with `AttributeError`;
      failing that, `KeyError` listing every layer name. */
  method GetLayer(layers: seq<Layer>, query: string) returns (r: Result<Layer>)
    ensures forall i :: 0 <= i < |layers| && ExactMatch(layers[i], query) && NoExactMatch(layers[..i], query) ==>
      r == Ok(layers[i])
    ensures NoExactMatch(layers, query) ==>
      forall i :: 0 <= i < |layers| && FuzzyMatch(layers[i], query) && ScannedWithoutMatch(layers, query, i) ==>
        r == Ok(layers[i])
    ensures NoExactMatch(layers, query) ==>
      forall i :: 0 <= i < |layers| && !layers[i].name.String? && ScannedWithoutMatch(layers, query, i) ==>
        r == Err(AttributeError("lower"))
    ensures NoExactMatch(layers, query) && ScannedWithoutMatch(layers, query, |layers|) ==>
      r == Err(KeyError(LayerNotFound(query, Names(layers))))
    ensures r.Ok? ==> r.value in layers
  {
    var i := 0;
    while i < |layers|
      invariant 0 <= i <= |layers|
      invariant NoExactMatch(layers[..i], query)
    {
      if layers[i].name == String(query) {
        return Ok(layers[i]);
      }
      assert layers[..i + 1] == layers[..i] + [layers[i]];
      i := i + 1;
    }
    assert layers[..i] == layers;
    var q := Lower(query);
    i := 0;
    while i < |layers|
      invariant 0 <= i <= |layers|
      invariant ScannedWithoutMatch(layers, query, i)
    {
      var n := layers[i].name;
      if !n.String? {
        return Err(AttributeError("lower"));
      }
      if Contains(Lower(n.s), q) {
        return Ok(layers[i]);
      }
      i := i + 1;
    }
    return Err(KeyError(LayerNotFound(query, Names(layers))));
  }

  // ---------------------------------------------------------------------
  // Frozen graph models

  /** `FrozenGraphModel._mandatory_properties`, in the order they are
      checked. */
  const MandatoryProperties: seq<string> := ["model_path", "image_value_range", "input_name", "image_shape"]

  /** The read-only properties of `Model`: assigning to one raises
      `AttributeError`. */
  const ReadOnlyProperties: set<string> := {"labels", "synset_ids", "synsets", "name", "graph_def"}

  /** Whether setting entries with these names as attributes assigns to a
      read-only property. */
  predicate SetsReadOnlyProperty(names: set<string>) {
    names * ReadOnlyProperties != {}
  }

  /** A `FrozenGraphModel` after `__init__`: its `manifest` attribute (the
      manifest itself, unless the manifest has a `manifest` entry, which
      replaces it), every manifest entry set as an attribute, the resolved
      `model_path`, and the layers and layer names derived from the
      `layers` entry, when it gives them. Where `layers` or `layerNames`
      is `None` the attribute is the manifest entry of that name, if any,
      else the class default. */
  datatype FrozenGraphModel = FrozenGraphModel(
    manifest: Json,
    attributes: map<string, Json>,
    modelPath: string,
    layers: Option<seq<Layer>>,
    layerNames: Option<Json>)

  /** The first key of `keys` missing from `present`. */
  function FirstMissing(keys: seq<string>, present: set<string>): (r: Option<nat>)
    ensures r.None? <==> forall k :: 0 <= k < |keys| ==> keys[k] in present
    ensures r.Some? ==> r.value < |keys| && keys[r.value] !in present && forall k :: 0 <= k < r.value ==> keys[k] in present
  {
    if keys == [] then None
    else if keys[0] !in present then Some(0)
    else match FirstMissing(keys[1..], present)
      case None => None
      case Some(i) => Some(i + 1)
  }

  /** The `model_path` handling of `__init__`: a path starting with `./`
      is joined to the model directory, any other string is kept, and a
      value that is not a string has no `startswith`. */
  function ResolveModelPath(modelDirectory: string, value: Json): (r: Result<string>)
    ensures r.Ok? <==> value.String?
    ensures r.Err? ==> r.error == AttributeError("startswith")
    ensures r.Ok? && StartsWith(value.s, "./") ==> r.value == Paths.Join(modelDirectory, value.s[2..])
    ensures r.Ok? && !StartsWith(value.s, "./") ==> r.value == value.s
  {
    match value
    case String(s) => if StartsWith(s, "./") then Ok(Paths.Join(modelDirectory, s[2..])) else Ok(s)
    case _ => Err(AttributeError("startswith"))
  }

  /** The class name recorded in the layers a `FrozenGraphModel` builds. */
  const FrozenGraphModelClass := "FrozenGraphModel"

  /** The `layers` handling of `__init__`: `len` of the entry (a missing
      entry is `None`) and, when it is not empty, a look at its first
      element. A string or a list starting with a string becomes
      `layer_names`; a list starting with an object builds the layers and
      names them; indexing a non-empty object with `0` raises `KeyError`. */
  function LayersAndNames(manifest: map<string, Json>): (r: Result<(Option<seq<Layer>>, Option<Json>)>)
    ensures ("layers" !in manifest || !(manifest["layers"].Array? || manifest["layers"].String? || manifest["layers"].Object?))
            ==> r == Err(TypeError)
    ensures ("layers" in manifest && manifest["layers"].Array? && manifest["layers"].items != []
             && manifest["layers"].items[0].String?) ==> r == Ok((None, Some(manifest["layers"])))
    ensures ("layers" in manifest && manifest["layers"].String? && manifest["layers"].s != [])
            ==> r == Ok((None, Some(manifest["layers"])))
    ensures ("layers" in manifest && manifest["layers"].Object? && manifest["layers"].fields != map[])
            ==> r == Err(KeyError(MissingKey(Number(0.0))))
    ensures ("layers" in manifest && manifest["layers"].Array? && manifest["layers"].items != []
             && manifest["layers"].items[0].Object?) ==>
      var made := LayersFromListOfDicts(FrozenGraphModelClass, manifest["layers"].items);
      && (r.Ok? <==> made.Ok?)
      && (r.Err? ==> r.error == made.error)
      && (r.Ok? ==> r.value.0 == Some(made.value) && r.value.1 == Some(Array(Names(made.value))))
    ensures r.Ok? && r.value.0.Some? ==> r.value.1 == Some(Array(Names(r.value.0.value)))
  {
    var entry := if "layers" in manifest then manifest["layers"] else Null;
    match entry
    case String(s) => if s != [] then Ok((None, Some(entry))) else Ok((None, None))
    case Object(fields) => if fields != map[] then Err(KeyError(MissingKey(Number(0.0)))) else Ok((None, None))
    case Array(items) =>
      if items == [] then Ok((None, None))
      else if items[0].String? then Ok((None, Some(entry)))
      else if items[0].Object? then
        var layers :- LayersFromListOfDicts(FrozenGraphModelClass, items);
        Ok((Some(layers), Some(Array(Names(layers)))))
      else Ok((None, None))
    case _ => Err(TypeError)
  }

  /** `FrozenGraphModel(model_directory, manifest)`: the mandatory
      properties are asserted in order; setting the entries as attributes
      then fails on any read-only property; then `model_path` and `layers`
      are interpreted. */
  function NewFrozenGraphModel(modelDirectory: string, manifest: map<string, Json>): (r: Result<FrozenGraphModel>)
    ensures (exists k :: 0 <= k < |MandatoryProperties| && MandatoryProperties[k] !in manifest) ==>
      && r.Err? && r.error.AssertionError?
      && exists k :: 0 <= k < |MandatoryProperties| && r.error == AssertionError(MandatoryProperties[k])
                     && MandatoryProperties[k] !in manifest
                     && forall m :: 0 <= m < k ==> MandatoryProperties[m] in manifest
    ensures ((forall k :: 0 <= k < |MandatoryProperties| ==> MandatoryProperties[k] in manifest)
             && SetsReadOnlyProperty(manifest.Keys)) ==> r == Err(CantSetAttribute)
    ensures r.Ok? ==> forall k :: 0 <= k < |MandatoryProperties| ==> MandatoryProperties[k] in manifest
    ensures r.Ok? ==> forall key :: key in manifest ==> key !in ReadOnlyProperties
    ensures r.Ok? ==> r.value.attributes == manifest
    ensures r.Ok? && "manifest" !in manifest ==> r.value.manifest == Object(manifest)
    ensures r.Ok? && "manifest" in manifest ==> r.value.manifest == manifest["manifest"]
    ensures r.Ok? ==> "model_path" in manifest && ResolveModelPath(modelDirectory, manifest["model_path"]) == Ok(r.value.modelPath)
    ensures r.Ok? ==> LayersAndNames(manifest) == Ok((r.value.layers, r.value.layerNames))
    ensures (forall k :: 0 <= k < |MandatoryProperties| ==> MandatoryProperties[k] in manifest) ==>
      (r.Ok? <==> && !SetsReadOnlyProperty(manifest.Keys)
                  && "model_path" in manifest
                  && ResolveModelPath(modelDirectory, manifest["model_path"]).Ok?
                  && LayersAndNames(manifest).Ok?)
  {
    match FirstMissing(MandatoryProperties, manifest.Keys)
    case Some(k) => Err(AssertionError(MandatoryProperties[k]))
    case None =>
      if SetsReadOnlyProperty(manifest.Keys) then Err(CantSetAttribute)
      else
        assert MandatoryProperties[0] in manifest;
        assert forall key :: key in manifest && key in ReadOnlyProperties ==> key in manifest.Keys * ReadOnlyProperties;
        var modelPath :- ResolveModelPath(modelDirectory, manifest["model_path"]);
        var derived :- LayersAndNames(manifest);
        var own := if "manifest" in manifest then manifest["manifest"] else Object(manifest);
        Ok(FrozenGraphModel(own, manifest, modelPath, derived.0, derived.1))
  }

  /** `FrozenGraphModel(model_directory, archive)` for a loaded `.npz`
      archive, a mapping from array names to arrays: the mandatory and
      read-only properties are checked by name as for a JSON manifest, and
      then `model_path`, an array, has no `startswith`. No archive builds a
      model. */
  function NewFrozenGraphModelFromArchive(arrays: map<string, Loading.NdArray>): (r: Result<FrozenGraphModel>)
    ensures r.Err?
    ensures FirstMissing(MandatoryProperties, arrays.Keys).Some? ==>
      r == Err(AssertionError(MandatoryProperties[FirstMissing(MandatoryProperties, arrays.Keys).value]))
    ensures FirstMissing(MandatoryProperties, arrays.Keys).None? && SetsReadOnlyProperty(arrays.Keys) ==>
      r == Err(CantSetAttribute)
    ensures FirstMissing(MandatoryProperties, arrays.Keys).None? && !SetsReadOnlyProperty(arrays.Keys) ==>
      r == Err(AttributeError("startswith"))
  {
    match FirstMissing(MandatoryProperties, arrays.Keys)
    case Some(k) => Err(AssertionError(MandatoryProperties[k]))
    case None =>
      if SetsReadOnlyProperty(arrays.Keys) then Err(CantSetAttribute)
      else Err(AttributeError("startswith"))
  }

  /** What `Model.load_from_manifest(manifest_url)` makes of the outcome of
      loading the manifest: any failure to load becomes `ValueError`; a
      loaded value without `get` raises `AttributeError`; a manifest of type
      `frozen`, the default, builds a `FrozenGraphModel` rooted at the
      manifest's directory; any other type is not implemented. A `.npz`
      archive is a mapping too: without a `type` array it is of the default
      type; one with a `type` array is taken not to be `frozen`. */
  function ModelFromManifest(manifestUrl: string, loaded: Result<Loading.Value>): (r: Result<FrozenGraphModel>)
    ensures loaded.Err? ==> r == Err(ValueError(ManifestNotFound(manifestUrl)))
    ensures (&& loaded.Ok?
             && !(loaded.value.JsonValue? && loaded.value.json.Object?)
             && !(loaded.value.NumpyValue? && loaded.value.numpy.Archive?)) ==> r == Err(AttributeError("get"))
    ensures loaded.Ok? && loaded.value.NumpyValue? && loaded.value.numpy.Archive? ==>
      r == if "type" in loaded.value.numpy.arrays then Err(NotImplementedError(UnsupportedArchiveType))
           else NewFrozenGraphModelFromArchive(loaded.value.numpy.arrays)
    ensures r.Ok? ==> loaded.Ok? && loaded.value.JsonValue? && loaded.value.json.Object?
                      && ManifestType(loaded.value.json.fields) == String("frozen")
    ensures loaded.Ok? && loaded.value.JsonValue? && loaded.value.json.Object?
            && ManifestType(loaded.value.json.fields) == String("frozen") ==>
              r == NewFrozenGraphModel(Paths.DirName(manifestUrl), loaded.value.json.fields)
    ensures loaded.Ok? && loaded.value.JsonValue? && loaded.value.json.Object?
            && ManifestType(loaded.value.json.fields) != String("frozen") ==>
              r == Err(NotImplementedError(UnsupportedManifestType(ManifestType(loaded.value.json.fields))))
  {
    if loaded.Err? then Err(ValueError(ManifestNotFound(manifestUrl)))
    else match loaded.value
      case JsonValue(Object(fields)) =>
        var kind := ManifestType(fields);
        if kind == String("frozen") then NewFrozenGraphModel(Paths.DirName(manifestUrl), fields)
        else Err(NotImplementedError(UnsupportedManifestType(kind)))
      case NumpyValue(Archive(arrays)) =>
        if "type" in arrays then Err(NotImplementedError(UnsupportedArchiveType))
        else NewFrozenGraphModelFromArchive(arrays)
      case _ => Err(AttributeError("get"))
  }

  /** `Model.load_from_manifest(manifest_url)`: the manifest is loaded with
      `load` and the default options, and only its outcome matters. */
  function LoadFromManifest(o: Loading.Oracles, manifestUrl: string): Result<FrozenGraphModel> {
    ModelFromManifest(manifestUrl, Loading.Load(o, Url(manifestUrl), Loading.DefaultCache, Loading.DefaultOptions).result)
  }

  /** `manifest.get('type', 'frozen')` */
  function ManifestType(fields: map<string, Json>): Json {
    if "type" in fields then fields["type"] else String("frozen")
  }
}

=== FILE: vision_policy.dfy ===
/** Properties of the model metadata logic: layer records round-trip
    through their manifest form, and a manifest next to its graph resolves
    the graph's relative path against the manifest's directory. */
module VisionPolicy {
  import opened JsonValues
  import opened Runtime
  import opened Strings
  import Paths
  import Loading
  import opened VisionBase

  /** The manifest entry describing a layer, listing its tags in `order`. */
  function LayerDict(l: Layer, order: seq<Json>): Json {
    Object(map["name" := l.name, "depth" := l.depth, "tags" := Array(order)])
  }

  predicate AllHashable(order: seq<Json>) {
    forall k :: 0 <= k < |order| ==> Hashable(order[k])
  }

  /** The manifest entry of a layer gives the layer back. */
  lemma LayerDictRoundTrip(l: Layer, order: seq<Json>)
    requires IsEnumeration(order, l.tags) && AllHashable(order)
    ensures LayerFromDict(l.modelClass, LayerDict(l, order)) == Ok(l)
  {
    var d := LayerDict(l, order);
    assert d.fields["tags"] == Array(order);
    var tags := TagSet(Array(order)).value;
    assert tags == l.tags;
  }

  /** The manifest form of a list of layers of one model class. */
  function LayerDicts(layers: seq<Layer>, orders: seq<seq<Json>>): (r: seq<Json>)
    requires |orders| == |layers|
    ensures |r| == |layers|
  {
    if layers == [] then [] else [LayerDict(layers[0], orders[0])] + LayerDicts(layers[1..], orders[1..])
  }

  /** `_layers_from_list_of_dicts` inverts the manifest form: the layers of
      one model class, written as dicts, are read back in the same order. */
  lemma {:induction false} LayersRoundTrip(modelClass: string, layers: seq<Layer>, orders: seq<seq<Json>>)
    requires && |orders| == |layers|
             && (forall k :: 0 <= k < |layers| ==> layers[k].modelClass == modelClass)
             && (forall k :: 0 <= k < |layers| ==> IsEnumeration(orders[k], layers[k].tags) && AllHashable(orders[k]))
    ensures LayersFromListOfDicts(modelClass, LayerDicts(layers, orders)) == Ok(layers)
  {
    if layers != [] {
      var dicts := LayerDicts(layers, orders);
      LayerDictRoundTrip(layers[0], orders[0]);
      LayersRoundTrip(modelClass, layers[1..], orders[1..]);
      assert dicts[0] == LayerDict(layers[0], orders[0]);
      assert dicts[1..] == LayerDicts(layers[1..], orders[1..]);
      assert layers == [layers[0]] + layers[1..];
    }
  }

  /** A `model_path` of the form `./rest` is joined to the model
      directory. */
  lemma RelativeModelPath(dir: string, fields: map<string, Json>, rest: string)
    requires dir != [] && dir[|dir| - 1] != '/'
    requires !StartsWith(rest, "/")
    requires forall k :: 0 <= k < |MandatoryProperties| ==> MandatoryProperties[k] in fields
    requires "model_path" in fields && fields["model_path"] == String("./" + rest)
    requires fields.Keys * ReadOnlyProperties == {}
    requires LayersAndNames(fields).Ok?
    ensures NewFrozenGraphModel(dir, fields).Ok?
    ensures NewFrozenGraphModel(dir, fields).value.modelPath == dir + "/" + rest
  {
    Paths.JoinRelative(dir, rest);
    var s := "./" + rest;
    assert StartsWith(s, "./") && s[2..] == rest;
  }

  /** A loaded manifest without a `type` builds a `FrozenGraphModel` rooted
      at the manifest's directory. */
  lemma UntypedManifestIsFrozen(url: string, fields: map<string, Json>)
    requires "type" !in fields
    ensures ModelFromManifest(url, Ok(Loading.JsonValue(Object(fields)))) == NewFrozenGraphModel(Paths.DirName(url), fields)
  {
    assert ManifestType(fields) == String("frozen");
  }

  /** A manifest stored in `dir` whose `model_path` is `./rest` points the
      model at `rest` inside `dir`. */
  lemma ManifestPathIsRelativeToItsDirectory(dir: string, file: string, fields: map<string, Json>, rest: string)
    requires dir != [] && dir[|dir| - 1] != '/'
    requires '/' !in file
    requires !StartsWith(rest, "/")
    requires "type" !in fields
    requires forall k :: 0 <= k < |MandatoryProperties| ==> MandatoryProperties[k] in fields
    requires "model_path" in fields && fields["model_path"] == String("./" + rest)
    requires fields.Keys * ReadOnlyProperties == {}
    requires LayersAndNames(fields).Ok?
    ensures var r := ModelFromManifest(dir + "/" + file, Ok(Loading.JsonValue(Object(fields))));
      r.Ok? && r.value.modelPath == dir + "/" + rest
  {
    UntypedManifestIsFrozen(dir + "/" + file, fields);
    Paths.DirNameOfChild(dir, file);
    RelativeModelPath(dir, fields, rest);
  }

  /** The mandatory properties are checked in order: the first one missing
      is the one reported. */
  lemma FirstMissingPropertyReported(dir: string, fields: map<string, Json>)
    requires "model_path" in fields && "image_value_range" in fields
    requires "input_name" !in fields
    ensures NewFrozenGraphModel(dir, fields) == Err(AssertionError("input_name"))
  {
    assert MandatoryProperties[0] in fields && MandatoryProperties[1] in fields;
    assert MandatoryProperties[2] !in fields;
  }

  /** A manifest with every mandatory property and a `name` entry fails:
      `name` is a read-only property of every model. */
  lemma ManifestNamingTheModelIsRejected(dir: string, fields: map<string, Json>)
    requires forall k :: 0 <= k < |MandatoryProperties| ==> MandatoryProperties[k] in fields
    requires "name" in fields
    ensures NewFrozenGraphModel(dir, fields) == Err(CantSetAttribute)
  {
    assert "name" in fields.Keys * ReadOnlyProperties;
  }

  /** An archive fails exactly as a JSON manifest with the same entry names
      and a `model_path` that is not a string. */
  lemma ArchiveIsAManifestWithoutStringPath(dir: string, arrays: map<string, Loading.NdArray>)
    ensures NewFrozenGraphModelFromArchive(arrays) == NewFrozenGraphModel(dir, map k | k in arrays.Keys :: Null)
  {
    var fields := map k | k in arrays.Keys :: Null;
    assert fields.Keys == arrays.Keys;
  }
}
